=== FILE: README.md ===
# Excel Interview Agent: the verified core

The Excel Interview Agent is a chat assistant. It interviews a candidate on Excel tasks,
answers the language model's tool calls with local handlers, and shows an evaluation of the
uploaded workbook in a Streamlit page. This project models the pure logic under that plumbing
as Dafny datatypes and functions, and proves what the code promises about it.

- **Strict-schema patcher** (`fix_schema_for_openai_strict`). It closes every object-typed
  mapping of a JSON schema and makes all of its properties required.
- **Upload-intent detection** (`detect_upload_intent`). A keyword test on the lower-cased user
  text.
- **Evaluation records** (`EvaluationFeedback`, `DetailedAnalysis`). Their validation and
  dumping, and the two evaluators that turn every failure of the remote request into a
  well-formed record.
- **Tool handlers and registry** (`TOOL_FUNCTIONS`). The six-step task table, the step counter,
  the workbook evaluation records and the start record.
- **Tool-call dispatcher** (`handle_tool_calls`). It decodes each call's arguments, drops the
  calls that do not decode, routes by name, reads arguments with their defaults, and wraps every
  failure in an error mapping.
- **The evaluation view** of the Streamlit page. This covers the score bands, which result is
  shown and which exceptions escape, the per-step progress status, and the test that decides
  whether an upload replaces the stored file.

Files, one module each:

- `base.dfy`: `Option` and `Result`.
- `json_value.dfy`: decoded JSON values. Mappings are ordered member lists with Python's dict
  semantics: a lookup finds the first member with the key; an assignment replaces that member
  in place or appends a new one; `{**a, **b}` is modelled as `Update`.
- `text.dfy`: lower-casing, substring search and decimal rendering.
- `upload_intent.dfy`, `models.dfy`, `evaluator.dfy`, `schema_patch.dfy`, `tool_handlers.dfy`,
  `dispatcher.dfy` and `streamlit_view.dfy` follow the program's own structure: the first five
  cover evaluation.py, models.py and tool_handlers.py, the dispatcher `handle_tool_calls`, and
  the last the evaluation view of streamlit_app.py.

Some inputs come from outside the program, so they are parameters:

- `json.loads` and `json.dumps` of tool arguments and messages (`JsonCodec`).
- The result of each remote chat request (`RemoteOutcome`: a decoded reply, a decoding error
  or any other failure).
- The identifiers `uuid.uuid4()` yields, whether reportlab can be imported, and the exception
  reportlab's `Paragraph` raises for a text it cannot parse as markup (`Environment`).
- The question bank, which the task handlers take as a parameter. The program's entry,
  `Dispatcher.HandleProgramToolCalls`, passes the bank of tool_handlers.py, `TaskTable`.

A handler that raises returns `Err` with the text of the exception. The dispatcher turns that
`Err` into the error mapping the source builds.

## Model

| member | source | states |
|---|---|---|
| Text.FindSubstring | evaluation.py:102 | The search answers true exactly when the keyword occurs at some position of the text, which is Python's `in` on strings. |
| UploadIntent.DetectUploadIntent | evaluation.py:95-102 | The answer is true exactly when the lower-cased input contains at least one of the twelve keywords. |
| UploadIntent.EmptyInputHasNoIntent | evaluation.py:97-102 | The empty input never signals an upload. |
| UploadIntent.IntentIgnoresCase | evaluation.py:101-102 | Lower-casing the input first does not change the answer. |
| UploadIntent.IntentSurvivesMoreText | evaluation.py:102 | Text added before or after an input that signals an upload keeps the signal. |
| UploadIntent.UpperCaseKeywordDetected | evaluation.py:97-102 | "UPLOAD" is detected although no keyword is upper case. |
| Models.ParseScore | models.py:13 | An absent or null score validates to None. An integer is accepted exactly when it lies in 0..10, and then validates to itself. A bool validates to 0 or 1. Any other value is rejected. Every accepted score satisfies the bound. |
| Models.ParseOptString | models.py:6-14 | An absent or null optional text validates to None and a string to itself; nothing else is accepted. |
| Models.StringsOf | models.py:15 | A list validates as a list of strings exactly when every item is a string, and then item by item. |
| Models.ParseRecommendations | models.py:15-18 | An absent list defaults to the empty list and null stays None. A list of strings validates to itself. Anything else is rejected: a non-list, or a list holding a non-string. |
| Models.FeedbackFromJson | models.py:12-18 | A non-mapping fails with CPython's `models.EvaluationFeedback() argument after ** must be a mapping` text. A mapping validates exactly when its score, feedback and recommendations fields each validate, and its score then satisfies the bound; an out-of-range integer score is rejected. |
| Models.DumpFeedbackKeys | models.py:12-18 | Dumping a record writes the fields score, feedback and recommendations, in declaration order. |
| Models.FeedbackRoundTrip | models.py:12-18 | Validating the dump of a record whose score is in range gives the record back. |
| Models.FeedbackDefaults | models.py:13-18 | The empty mapping validates to the record with no score, no feedback and an empty recommendation list. |
| Models.AnalysisFromJson | models.py:5-10 | Only a mapping validates; the empty mapping gives five absent fields. |
| Models.OptStrValidates | models.py:6-10 | The dump of an optional text validates back to it. |
| Models.AnalysisRoundTrip | models.py:5-10 | Validating the dump of an analysis record gives it back. |
| Evaluator.Evaluate | evaluation.py:166-198 | A reply that validates is returned as validated. Any other outcome gives a failure record: score 0, a feedback text and exactly one recommendation. Its prefix is the decoding-error text for an undecodable reply and the general text otherwise. |
| Evaluator.EvaluateExcelWithLlm | evaluation.py:166-198 | The full evaluator returns the validated reply or its own failure records, with the source's feedback prefixes, and never raises. |
| Evaluator.LlmEvaluateExcel | evaluation.py:242-268 | The streamlined evaluator does the same with its own texts and advice. |
| Evaluator.EvaluationDumpRevalidates | evaluation.py:175-177 | Whatever either evaluator returns validates again after dumping. |
| Evaluator.OutOfRangeScoreBecomesFailure | evaluation.py:170-198 | A reply whose integer score is out of range makes the record constructor raise, so the result is a failure record with score 0. |
| SchemaPatch.FixSchema | evaluation.py:24-40 | The patch succeeds exactly on trees in which every object-typed mapping the source visits has a mapping (or nothing) as `properties`. Values the marks overwrite are not visited. The result is the tree `Patch` builds, so the `Patch` lemmas apply to it; it closes every object-typed mapping, and is strict-ready when no `properties` mapping is itself object-typed. |
| SchemaPatch.MarkValuesFixed | evaluation.py:29-32 | The values the marks write, `false` and a list of strings, are left alone by both patches. |
| SchemaPatch.MarksFirstAgrees | evaluation.py:26-34 | Writing the marks first and then patching every value of the marked mapping, the source's order, gives the same tree as patching the values first and marking afterwards. |
| SchemaPatch.OverwrittenValueIgnored | evaluation.py:28-34 | An `additionalProperties` value holding an object-typed mapping with a non-mapping `properties` does not make the patch fail: it is overwritten with `false` before the recursion would reach it. |
| SchemaPatch.MarkWithOther | evaluation.py:28-32 | Marking a mapping changes no member other than `additionalProperties` and `required`. |
| SchemaPatch.PatchKind | evaluation.py:26-37 | The patch keeps every value's kind and leaves strings alone. |
| SchemaPatch.PatchKeepsType | evaluation.py:28 | The patch keeps whether a mapping is object-typed. |
| SchemaPatch.PatchMarksObjectMapping | evaluation.py:28-32 | An object-typed mapping gets `additionalProperties` false. With a `properties` mapping, `required` becomes its key list in order, overwriting any earlier value. Without one, `required` is only patched like any other member. |
| SchemaPatch.PatchLeavesRestAlone | evaluation.py:26-37 | Scalars are unchanged. Lists are patched item by item. A mapping keeps its keys in order and gains at most two, and every other key maps to the patch of its old value. A mapping that is not object-typed keeps exactly its keys. |
| SchemaPatch.PatchCloses | evaluation.py:26-37 | After the patch every object-typed mapping at any depth has `additionalProperties` false. |
| SchemaPatch.PatchAgreesWhenUntagged | evaluation.py:24-40 | On trees whose `properties` mappings are not object-typed, the patch as written equals the corrected one. |
| SchemaPatch.PatchPreservesUntagged | evaluation.py:26-37 | The patch keeps that condition on the tree. |
| SchemaPatch.PatchReadyWhenUntagged | evaluation.py:24-40 | On such trees the patched tree is strict-ready: closed, and requiring exactly the keys of each `properties` mapping. |
| SchemaPatch.PatchIdempotentWhenUntagged | evaluation.py:24-40 | On such trees patching twice is patching once. |
| SchemaPatch.PatchTaggedOnce | evaluation.py:28-35 | One pass on a schema whose `properties` mapping carries `"type": "object"` lists only `type` as required, while that mapping gains `additionalProperties`. |
| SchemaPatch.PatchNotIdempotent | evaluation.py:24-40 | On that schema a second pass changes the tree, and the first result is not strict-ready. |
| SchemaPatch.PatchStrictReady | evaluation.py:24-40 | The corrected patch, which takes `required` from the patched `properties`, always gives a strict-ready tree. |
| SchemaPatch.StrictReadyFixed | evaluation.py:24-40 | The corrected patch leaves a strict-ready tree unchanged. |
| SchemaPatch.PatchStrictIdempotent | evaluation.py:24-40 | The corrected patch is idempotent on every tree. |
| SchemaPatch.FixSchemaStrict | evaluation.py:24-40 | The corrected entry point accepts the same trees, gives strict-ready fixed points, and agrees with the original wherever no `properties` mapping is object-typed. |
| ToolHandlers.TaskTableIsBank | tool_handlers.py:31-68 | The task table has one entry for each of the six steps. |
| ToolHandlers.TaskTableTexts | tool_handlers.py:31-68 | Every step of the table has a non-empty title, question and task. |
| ToolHandlers.ErrorMapping | tool_handlers.py:106-108 | An error mapping has the single key `error`, holding the message. |
| ToolHandlers.SelectEntry | tool_handlers.py:71 | A list or mapping as question number raises "unhashable type". An int or bool in 1..6 selects that step. Any other value falls back to step 1. |
| ToolHandlers.TaskRecord | tool_handlers.py:73-83 | The record has the nine keys in order. It echoes the ids and the question number, reports 5 questions, and shows the entry. It offers the sample file exactly when the number equals 1, and None otherwise. |
| ToolHandlers.GenerateExcelTask | tool_handlers.py:21-83 | The task fails exactly for an unhashable question number, with Python's message. Otherwise the record has the task-record keys, the fresh task id, the session id, the unclamped question number and `total_questions` 5. |
| ToolHandlers.GenerateShowsSelection | tool_handlers.py:71-82 | A hashable number gives a record showing the entry it selects. `sample_file` is the sample file name exactly for 1 or True, and None otherwise. |
| ToolHandlers.GenerateShowsStep | tool_handlers.py:71-81 | For n in 1..6 the reply is the task record of entry n. |
| ToolHandlers.GenerateFallsBack | tool_handlers.py:71-81 | Any other hashable number gets the record of entry 1, still echoing the number it was given. |
| ToolHandlers.NextStep | tool_handlers.py:171-173 | The counter advances to c + 1 exactly when c < 6; `NextExcelQuestion` takes its step from this function. |
| ToolHandlers.NextExcelQuestion | tool_handlers.py:165-181 | A counter that is not an int or bool makes `current_question + 1` raise, with Python's message. Past step 6 the reply is the assessment-complete record with `next_action` `upload_file`. |
| ToolHandlers.NextWithoutCounter | tool_handlers.py:169-171 | A null counter raises the `NoneType` addition error. |
| ToolHandlers.NextAdvances | tool_handlers.py:171-181 | Below step 6 the reply equals `generate_excel_task(session_id, c + 1)` with the same task id. It reports c + 1 and shows entry c + 1, or entry 1 for a number below 1. |
| ToolHandlers.WalkCounts | tool_handlers.py:171-181 | Chaining the counter from c visits c + 1, ..., 6 once each, in order. |
| ToolHandlers.WalkFromFirstStep | tool_handlers.py:171-181 | From step 1 the chained calls answer with question numbers 2, 3, 4, 5, 6, and the call after step 6 completes the assessment. |
| ToolHandlers.EvaluateWorkbook | tool_handlers.py:85-108 | The reply is always a mapping; its keys and values are stated by WorkbookRecord. |
| ToolHandlers.MergeEvaluation | tool_handlers.py:98-103 | Merging an evaluation into a record without its three keys appends them. Earlier keys keep their values, and the merged record validates back to the evaluation. |
| ToolHandlers.WorkbookRecord | tool_handlers.py:91-108 | Without a file the reply has only the `error` key, with the no-file message. With a file it holds session id, task id and file name, then the evaluation fields, which validate back to the evaluator's record. |
| ToolHandlers.LlmEvaluateExcelTool | tool_handlers.py:110-123 | The streamlined tool fails exactly when the summary is a truthy value without a length, because of the `len` on line 113, with Python's message. |
| ToolHandlers.StreamlinedRecord | tool_handlers.py:116-123 | Otherwise the reply is tagged `streamlined`, echoes the summary, and carries the evaluation fields, which validate back to the streamlined evaluation. |
| ToolHandlers.SummarizeAssessment | tool_handlers.py:125-163 | The summary always raises. Without reportlab the import fails. With it, the title paragraph's parse error comes first, and it is the title that holds the session id. Then comes the score paragraph's parse error, and only after both parse does the missing `grade` key raise. |
| ToolHandlers.ScoreLineMarkupFree | tool_handlers.py:150 | The score paragraph holds no markup, whatever the evaluation's score, `None` included. |
| ToolHandlers.GradeMissingForPlainSession | tool_handlers.py:136-151 | Suppose reportlab is present, its parser accepts every text free of `<` and `&`, and the session id holds neither. Then the handler fails on the missing `grade` key. |
| ToolHandlers.StartExcelAssessment | tool_handlers.py:7-19 | The reply is always a mapping; its keys and values are stated by StartRecord. |
| ToolHandlers.StartRecord | tool_handlers.py:12-19 | The start record has its four keys in order, the fresh session id, the greeting and the status `assessment_started`. |
| ToolHandlers.GreetsByName | tool_handlers.py:16 | A name given as a string is greeted verbatim, and a missing one as "None". |
| ToolHandlers.RegistryShape | tool_handlers.py:218-225 | The registry maps exactly six names, one per handler. `llm_evaluate_excel` names the streamlined tool, and `provide_download_help` is not registered. |
| Dispatcher.GetReads | evaluation.py:295-316 | `args.get(key, default)` gives the value of a present key and the default for a missing one. |
| Dispatcher.Branch | evaluation.py:291-319 | A name is registered exactly when the if/elif chain has a branch for it, and that branch calls the registered handler, so the "Unhandled function" branch cannot be reached. |
| Dispatcher.Invoke | evaluation.py:294-316 | Arguments that decoded to something other than a mapping make the first `.get` raise. A handler that returns gives a mapping. |
| Dispatcher.EnvelopeReports | evaluation.py:320-322 | A handler's reply passes through unchanged. An exception becomes a mapping whose single key `error` holds "Tool function <name> failed: <text>". |
| Dispatcher.Dispatch | evaluation.py:288-326 | The result is always a mapping: the unknown-function error, or the handler's reply or failure. |
| Dispatcher.Responses | evaluation.py:275-339 | There is at most one message per call, and each has role `tool`. |
| Dispatcher.HandleToolCalls | evaluation.py:270-339 | The loop produces the messages of `Responses`: at most one per call, each with role `tool`. |
| Dispatcher.HandleProgramToolCalls | evaluation.py:270-339 | The program's dispatcher, whose handlers read the task table of tool_handlers.py, answers with the messages of `Responses` over that table. |
| Dispatcher.KeptPositions | evaluation.py:279-285 | The calls that get a message are exactly the calls whose arguments decode, listed in increasing position. |
| Dispatcher.ResponsesAnswerDecodedCalls | evaluation.py:275-339 | Message k answers the k-th decoded call, carrying that call's id and the dumped dispatch of its arguments. |
| Dispatcher.KeptLength | evaluation.py:279-285 | At most one position per call is kept. All are kept exactly when every call decodes, and then position k is call k. |
| Dispatcher.ResponsesLength | evaluation.py:275-339 | There are no more messages than calls, and the same number exactly when every call decodes. Then message k answers call k. |
| Dispatcher.UnknownNameReported | evaluation.py:324-326 | An unregistered name gets the single-key mapping "Unknown function: <name>". |
| Dispatcher.NonMappingArguments | evaluation.py:294-323 | Arguments that are not a mapping make any registered handler fail, reported as "Tool function <name> failed: ..." with the `.get` error. |
| Dispatcher.QuestionNumberDefaultsToOne | evaluation.py:297-301 | Without `question_number` the task generator is asked for step 1. |
| Dispatcher.CurrentQuestionDefaultsToOne | evaluation.py:302-306 | Without `current_question` the counter advances from step 1. |
| Dispatcher.WorkbookUsesCallerFile | evaluation.py:307-312 | `evaluate_workbook` receives the caller's file whatever the arguments carry; without one its reply is the no-file error. |
| Dispatcher.SummaryAlwaysFails | evaluation.py:315-323 | `summarize_assessment` is always answered with a single-key error mapping. It holds the missing library, or the handler's failure on the session id read with default `None`. That failure is the `grade` key for a session id without markup. |
| StreamlitView.Band | streamlit_app.py:183-192 | The bands are Expert for 90 and up, Proficient for 80-89, Competent for 70-79, Basic for 60-69 and Needs Training below 60. They are total and mutually exclusive. |
| StreamlitView.BandMonotone | streamlit_app.py:183-192 | A higher score never gets a lower band. |
| StreamlitView.ValidScoresNeedTraining | streamlit_app.py:182-192 | Any score the record admits (0..10, or none read as 0) falls in Needs Training. |
| StreamlitView.ClassifyScore | streamlit_app.py:182-192 | An int or bool score is shown with its band. Anything else makes `score >= 90` raise a TypeError with Python's message. |
| StreamlitView.SubScoreError | streamlit_app.py:200-221 | A sub-score's bar is drawn exactly when the value read with default 0 is an integer between 0 and its maximum. A missing sub-score never fails. |
| StreamlitView.FirstSubScoreError | streamlit_app.py:198-221 | With none of the five sub-scores present the breakdown never fails. |
| StreamlitView.RecommendationsError | streamlit_app.py:228-231 | Listing the recommendations fails exactly for a truthy number or bool. |
| StreamlitView.RenderWith | streamlit_app.py:172-233 | A result mapping is shown exactly when the score compares and neither the breakdown nor the recommendations raise, and then with the score's band. A score that does not compare fails first. |
| StreamlitView.Examine | streamlit_app.py:166-172 | A result is looked at only when it is a tool message mentioning "score". Undecodable content is skipped. A shown result decoded to a mapping with a `score` key. |
| StreamlitView.ExamineDecoded | streamlit_app.py:170-236 | A decoded mapping is used exactly when it has `score`, and is then rendered. A decoded number, bool or null makes the `in` test raise. |
| StreamlitView.SkippedPrefix | streamlit_app.py:165-236 | Results the loop moves past do not change the outcome. |
| StreamlitView.Scan | streamlit_app.py:165-238 | The loop stops at the first result it does not move past. A shown result was rendered with that band. An escaping exception is that first result's failure. Nothing is shown exactly when the loop moves past every result. |
| StreamlitView.DisplayEvaluationResults | streamlit_app.py:163-238 | The page shows the first tool result that mentions "score" and decodes to a mapping with a `score` key, if it renders. It raises that result's exception if not. It returns False exactly when every result is passed over. |
| StreamlitView.DisplayEvaluationResultsFixed | streamlit_app.py:163-238 | The corrected page makes the same choice of result, reading a null score as 0. |
| StreamlitView.FirstExaminedDecides | streamlit_app.py:165-238 | If every result moves on, nothing is shown (False). Otherwise the first result that does not move on decides the outcome. |
| StreamlitView.RenderedIsFirst | streamlit_app.py:165-238 | The shown result is a tool message mentioning "score" whose content decodes to a mapping with a `score` key, and every earlier result was moved past. |
| StreamlitView.NullScoreRendering | streamlit_app.py:172-233 | A result mapping whose score is null raises the comparison TypeError as written, whatever else it holds. The corrected view shows it as Needs Training exactly when its breakdown and recommendations draw. |
| StreamlitView.NullScoreRaises | streamlit_app.py:165-238 | When the first result the loop stops at has a null score, the page as written raises. The corrected page shows that result as Needs Training exactly when its breakdown and recommendations draw. |
| StreamlitView.FixedNeverRaisesNullScore | streamlit_app.py:165-238 | The corrected page never raises the null-score comparison error. |
| StreamlitView.NullScoreWitness | streamlit_app.py:166-183 | A single tool message `{"score": null}` makes the page as written raise. |
| StreamlitView.WorkbookReportsNullScore | tool_handlers.py:98-103 | An evaluation reply of `{}` gives a workbook record whose score is null and whose recommendations are an empty list. |
| StreamlitView.WorkbookNullRecordDraws | tool_handlers.py:98-103 | In that record only the score can fail to draw: it has no sub-scores and its recommendations iterate. |
| StreamlitView.DispatchedNullScoreRaises | streamlit_app.py:165-238 | A dispatched `evaluate_workbook` call whose evaluation reply is `{}` gives a tool message that makes the page as written raise. The corrected page shows it as Needs Training. |
| StreamlitView.StepStatusOf | streamlit_app.py:257-263 | Step i is done before the current question, in progress at it and pending after it. |
| StreamlitView.Statuses | streamlit_app.py:248-263 | Every step gets the status of its 1-based position. |
| StreamlitView.DisplayProgress | streamlit_app.py:240-263 | The block is shown exactly when the current question is positive, with one status per step. |
| StreamlitView.StatusCounts | streamlit_app.py:257-263 | The number of steps in progress, done and pending for any current question. |
| StreamlitView.OneStepInProgress | streamlit_app.py:242-263 | For a current question in 1..6 exactly one step is in progress and q - 1 are done. |
| StreamlitView.HandleFileUpload | streamlit_app.py:119-141 | The upload replaces the stored file exactly when none is stored or the names differ. It then queues the evaluation request, and the history copy carries the `[FILE UPLOADED: name]` tag. Otherwise nothing changes. |
| StreamlitView.UploadSettles | streamlit_app.py:131-132 | Uploading the same file again right after changes nothing. |
| StreamlitView.SameNameKeepsStored | streamlit_app.py:131 | A file with the stored file's name does not replace it, even with other contents. |

## Left out

- `ToolHandlers.SummarizeAssessment`: reportlab's markup grammar is not modelled. Which texts its `Paragraph` rejects, and with what message, is the `paragraphError` parameter. `GradeMissingForPlainSession` assumes only that a text free of `<` and `&` parses.
- The interactive console loop, the launcher, the dependency checks and the static tool catalogue: `main.py`, `run_streamlit.py` and `tools.py`. They are input and output only; `tools.py` is not part of this model.
- Reading the workbook from disk and its base64 encoding (`upload_excel_file`). Also the `size_kb` field and the progress fraction `min(q / 6, 1.0)`. These are file system work and floating point.
- Building the prompts and the remote chat requests. What a request gives back is the parameter `RemoteOutcome`.
- Logging, all Streamlit rendering calls, `st.rerun`, and the PDF layout of `summarize_assessment`. Only the exception that ends the summary is modelled.
- `provide_download_help`. It returns a constant text and is not reachable through the registry.
- JSON numbers are integers. Floats never reach the score bands or the sub-score bars here, and JSON text itself is not parsed: `json.loads` and `json.dumps` are parameters.
- Duplicate keys in a mapping. `json.loads` keeps the last one, while `Lookup` reads the first. A codec that yields duplicate keys, or a schema tree given to the patcher with duplicate keys, therefore falls outside what the model matches.
- `Text.Lower`: lower-cases ASCII letters only, where Python's `str.lower` covers all of Unicode.
- `Models.ParseScore`: does not model pydantic's lax coercion of numeric strings and integral floats (such as "5" and 5.0), which the source accepts. Such values are rejected here as invalid integers.
- Pydantic's error messages are given in shortened form. A feedback text that embeds one therefore differs from the source's text after the prefix.
- `ToolHandlers.PyRepr`: always quotes with single quotes and escapes nothing. Python's `repr` switches to double quotes for a string containing a single quote and escapes control characters. Only the greeting of a non-string name uses it.
- `ToolHandlers.EvaluateWorkbook`: its own contract says only that the reply is a mapping. The record's keys and values are stated by the lemma `WorkbookRecord`, which keeps the dispatcher's proofs small.
- `ToolHandlers.StartExcelAssessment`: its own contract says only that the reply is a mapping. The record is stated by the lemma `StartRecord`, for the same reason.
- `SchemaPatch.FixSchema`: a rejected tree gives `None` rather than the text of the exception that `.keys()` raises on a non-mapping `properties`.
- `ToolHandlers.WorkbookRecord`: the uploaded file is an `Option`. An empty file mapping, which is falsy in Python and takes the no-file branch, is not represented.
- Pydantic's schema generation (`model_json_schema`). The patcher is given an arbitrary JSON tree instead.
- Fresh identifiers are parameters, not random: `uuid.uuid4()` is left out.

## Findings

| source | as written | input that shows it | evidently intended | confidence | as-written member | corrected member |
|---|---|---|---|---|---|---|
| evaluation.py:31-35 | `required` is taken from the keys of `properties` before the recursion patches that mapping, and the recursion can add `additionalProperties` to it | `{"type": "object", "properties": {"type": "object"}}`: one pass requires only `type`; a second pass also requires `additionalProperties` | every property of the patched schema is required, so a second pass changes nothing | not executed; only schemas whose `properties` mapping has a string `type` of "object" are affected | SchemaPatch.PatchNotIdempotent | SchemaPatch.FixSchemaStrict |
| streamlit_app.py:182-183 | the band chain compares the stored score with 90, and the stored score is null when the evaluation record has none | an `evaluate_workbook` call whose evaluation reply is `{}`: its tool message holds the six-key record with `"score": null`, no sub-scores and an empty recommendation list | a missing score counts as 0, as the default of `get('score', 0)` says, and is shown as Needs Training; the corrected page never raises the null comparison (`FixedNeverRaisesNullScore`) | not executed | StreamlitView.DispatchedNullScoreRaises | StreamlitView.DisplayEvaluationResultsFixed |

=== FILE: base.dfy ===
/** Failure-carrying values shared by every module of the model. */
module Base {

  /** An optional value: Python's `None` versus a present value. */
  datatype Option<+T> = None | Some(value: T)

  /** The outcome of a Python call that may raise: `Err` carries `str(e)` of the exception. */
  datatype Result<+T> = Ok(value: T) | Err(error: string) {

    predicate IsFailure()
    {
      Err?
    }

    function PropagateFailure<U>(): Result<U>
      requires Err?
    {
      Err(error)
    }

    function Extract(): T
      requires Ok?
    {
      value
    }
  }
}

=== FILE: dispatcher.dfy ===
/** `handle_tool_calls` of evaluation.py: decode each tool call's arguments, run the registered
    handler with the arguments pulled out by key, and answer with one tool message per decoded
    call.

    `json.loads`/`json.dumps` are parameters (`JsonCodec`), as are the fresh identifiers, the
    remote evaluation outcomes, the availability of reportlab and its paragraph parser
    (`Environment`, indexed by the
    call's position in the list). The question bank the task handlers read is a parameter too;
    `HandleProgramToolCalls` is the entry with the bank of tool_handlers.py,
    `ToolHandlers.TaskTable`. */
module Dispatcher {
  import opened Base
  import opened JsonValue
  import opened Models
  import opened Evaluator
  import opened ToolHandlers

  /** One entry of `tool_calls`: its id, the function name and the raw argument string. */
  datatype ToolCall = ToolCall(id: string, name: string, arguments: string)

  /** The message emitted for a handled call. */
  datatype ToolMessage = ToolMessage(role: string, toolCallId: string, content: string)

  /** `json.loads` and `json.dumps`; `loads` gives `None` where it raises `JSONDecodeError`. */
  datatype JsonCodec = JsonCodec(loads: string -> Option<Json>, dumps: Json -> string)

  /** What the handler of the call at position `i` draws from outside the program: the identifier
      `uuid.uuid4()` yields, the outcome of its remote evaluation, whether reportlab imports, and
      the exception reportlab's `Paragraph` raises for a text it cannot parse as markup. */
  datatype Environment = Environment(freshId: nat -> string, remote: nat -> RemoteOutcome, reportlabAvailable: bool,
                                     paragraphError: string -> Option<string>)

  /** `args.get(key, default)` once the arguments are known to be a mapping. */
  function Get(ms: seq<Member>, key: string, default: Json): Json
  {
    match Lookup(ms, key)
    case Some(v) => v
    case None => default
  }

  /** `get` reads the value of a present key and falls back to the default otherwise. */
  lemma GetReads(ms: seq<Member>, key: string, default: Json)
    ensures key in Keys(ms) ==> Lookup(ms, key) == Some(Get(ms, key, default))
    ensures key !in Keys(ms) ==> Get(ms, key, default) == default
  {
  }

  /** The exception of `args.get(...)` on arguments that decoded to something other than a mapping. */
  function NoGetError(args: Json): string
  {
    "'" + TypeName(args) + "' object has no attribute 'get'"
  }

  /** The `if`/`elif` chain on the function name: the branch a name selects, `None` for the final
      `else` that reports an unhandled function. Every registered name has its own branch, and
      that branch calls the registered handler, so the "Unhandled function" branch cannot be
      reached. */
  function Branch(name: string): (r: Option<ToolFunction>)
    ensures r.Some? <==> name in ToolFunctions
    ensures r.Some? ==> r.value == ToolFunctions[name]
  {
    if name == "start_excel_assessment" then Some(StartExcelAssessmentFn)
    else if name == "generate_excel_task" then Some(GenerateExcelTaskFn)
    else if name == "next_excel_question" then Some(NextExcelQuestionFn)
    else if name == "evaluate_workbook" then Some(EvaluateWorkbookFn)
    else if name == "llm_evaluate_excel" then Some(LlmEvaluateExcelToolFn)
    else if name == "summarize_assessment" then Some(SummarizeAssessmentFn)
    else None
  }

  /** The handler call of one branch, for the call at position `i`. The first `.get` raises
      when the arguments are not a mapping; every later one then succeeds. */
  function Invoke(f: ToolFunction, args: Json, file: Option<UploadedFile>, env: Environment, i: nat, bank: QuestionBank): (r: Result<Json>)
    ensures !args.Obj? ==> r == Err(NoGetError(args))
    ensures r.Ok? ==> r.value.Obj?
  {
    if !args.Obj? then Err(NoGetError(args))
    else
      var ms := args.members;
      match f
      case StartExcelAssessmentFn =>
        Ok(StartExcelAssessment(Get(ms, "candidate_name", Null), env.freshId(i)))
      case GenerateExcelTaskFn =>
        GenerateExcelTask(bank, Get(ms, "session_id", Null), Get(ms, "question_number", Num(1)), env.freshId(i))
      case NextExcelQuestionFn =>
        NextExcelQuestion(bank, Get(ms, "session_id", Null), Get(ms, "current_question", Num(1)), env.freshId(i))
      case EvaluateWorkbookFn =>
        Ok(EvaluateWorkbook(Get(ms, "session_id", Null), Get(ms, "task_id", Null), file, env.remote(i)))
      case LlmEvaluateExcelToolFn =>
        LlmEvaluateExcelTool(Get(ms, "workbook_summary", Null), env.remote(i))
      case SummarizeAssessmentFn =>
        SummarizeAssessment(Get(ms, "session_id", Null), env.remote(i), env.reportlabAvailable, env.paragraphError)
  }

  /** A handler's return value, or the error mapping its exception is turned into. */
  function Envelope(name: string, r: Result<Json>): Json
  {
    match r
    case Ok(v) => v
    case Err(msg) => ErrorMapping("Tool function " + name + " failed: " + msg)
  }

  /** A handler's reply passes through untouched; its exception becomes a mapping with the single
      key `error` that names the function and carries the exception's text. */
  lemma EnvelopeReports(name: string, r: Result<Json>)
    ensures r.Ok? ==> Envelope(name, r) == r.value
    ensures r.Err? ==> Keys(Envelope(name, r).members) == ["error"]
    ensures r.Err? ==> Field(Envelope(name, r), "error") == Some(Str("Tool function " + name + " failed: " + r.error))
  {
  }

  /** The result mapping for one decoded call. Nothing escapes: an unknown name and a failing
      handler both give a mapping with the single key `error`. */
  function Dispatch(name: string, args: Json, file: Option<UploadedFile>, env: Environment, i: nat, bank: QuestionBank): (r: Json)
    ensures r.Obj?
    ensures name !in ToolFunctions ==> r == ErrorMapping("Unknown function: " + name)
    ensures name in ToolFunctions ==> r == Envelope(name, Invoke(ToolFunctions[name], args, file, env, i, bank))
  {
    if name !in ToolFunctions then ErrorMapping("Unknown function: " + name)
    else
      match Branch(name)
      case None => assert false; ErrorMapping("Unhandled function: " + name)
      case Some(f) => Envelope(name, Invoke(f, args, file, env, i, bank))
  }

  /** The message for a call whose arguments decoded to `args`. */
  function Message(call: ToolCall, args: Json, i: nat, file: Option<UploadedFile>, env: Environment, codec: JsonCodec, bank: QuestionBank): ToolMessage
  {
    ToolMessage("tool", call.id, codec.dumps(Dispatch(call.name, args, file, env, i, bank)))
  }

  /** What the call at position `i` contributes: nothing when its arguments do not decode. */
  function Respond(call: ToolCall, i: nat, file: Option<UploadedFile>, env: Environment, codec: JsonCodec, bank: QuestionBank): seq<ToolMessage>
  {
    match codec.loads(call.arguments)
    case None => []
    case Some(args) => [Message(call, args, i, file, env, codec, bank)]
  }

  /** The messages for `calls`, defined on the list without its last call. */
  function Responses(calls: seq<ToolCall>, file: Option<UploadedFile>, env: Environment, codec: JsonCodec, bank: QuestionBank): (r: seq<ToolMessage>)
    ensures |r| <= |calls|
    ensures forall k :: 0 <= k < |r| ==> r[k].role == "tool"
    decreases |calls|
  {
    if calls == [] then []
    else
      var n := |calls| - 1;
      Responses(calls[..n], file, env, codec, bank) + Respond(calls[n], n, file, env, codec, bank)
  }

  /** `handle_tool_calls(tool_calls, uploaded_file_data)`. */
  method HandleToolCalls(calls: seq<ToolCall>, file: Option<UploadedFile>, env: Environment, codec: JsonCodec, bank: QuestionBank)
    returns (out: seq<ToolMessage>)
    ensures out == Responses(calls, file, env, codec, bank)
    ensures |out| <= |calls|
    ensures forall k :: 0 <= k < |out| ==> out[k].role == "tool"
  {
    out := [];
    var i := 0;
    while i < |calls|
      invariant 0 <= i <= |calls|
      invariant out == Responses(calls[..i], file, env, codec, bank)
    {
      ResponsesStep(calls, i, file, env, codec, bank);
      var call := calls[i];
      match codec.loads(call.arguments) {
        case None =>
        case Some(args) =>
          var result := Dispatch(call.name, args, file, env, i, bank);
          out := out + [ToolMessage("tool", call.id, codec.dumps(result))];
      }
      i := i + 1;
    }
    assert calls[..i] == calls;
  }

  /** One more call adds exactly what that call contributes. */
  lemma ResponsesStep(calls: seq<ToolCall>, i: nat, file: Option<UploadedFile>, env: Environment, codec: JsonCodec, bank: QuestionBank)
    requires i < |calls|
    ensures Responses(calls[..i + 1], file, env, codec, bank) ==
      Responses(calls[..i], file, env, codec, bank) + Respond(calls[i], i, file, env, codec, bank)
  {
    assert calls[..i + 1][..i] == calls[..i];
  }

  /** `handle_tool_calls` as the program runs it: the task handlers read the bank of
      tool_handlers.py, and every answer is a tool message. */
  method HandleProgramToolCalls(calls: seq<ToolCall>, file: Option<UploadedFile>, env: Environment, codec: JsonCodec)
    returns (out: seq<ToolMessage>)
    ensures out == Responses(calls, file, env, codec, TaskTable)
    ensures |out| <= |calls|
    ensures forall k :: 0 <= k < |out| ==> out[k].role == "tool"
  {
    TaskTableIsBank();
    out := HandleToolCalls(calls, file, env, codec, TaskTable);
  }

  /** Whether the arguments of the call at position `j` decode. */
  predicate Decodes(calls: seq<ToolCall>, j: int, codec: JsonCodec)
    requires 0 <= j < |calls|
  {
    codec.loads(calls[j].arguments).Some?
  }

  /** The positions of the calls that get a message, in list order. */
  function Kept(calls: seq<ToolCall>, codec: JsonCodec): seq<nat>
    decreases |calls|
  {
    if calls == [] then []
    else
      var n := |calls| - 1;
      Kept(calls[..n], codec) + (if codec.loads(calls[n].arguments).Some? then [n] else [])
  }

  /** The kept positions are positions of calls whose arguments decode, in increasing order,
      and every such call is kept. */
  lemma {:induction false} KeptPositions(calls: seq<ToolCall>, codec: JsonCodec)
    ensures forall k :: 0 <= k < |Kept(calls, codec)| ==>
      Kept(calls, codec)[k] < |calls| && Decodes(calls, Kept(calls, codec)[k], codec)
    ensures forall k, l :: 0 <= k < l < |Kept(calls, codec)| ==> Kept(calls, codec)[k] < Kept(calls, codec)[l]
    ensures forall j :: 0 <= j < |calls| ==> (Decodes(calls, j, codec) <==> j in Kept(calls, codec))
    decreases |calls|
  {
    if calls != [] {
      var n := |calls| - 1;
      var front := calls[..n];
      KeptPositions(front, codec);
      var kept, kept' := Kept(calls, codec), Kept(front, codec);
      assert kept == kept' + (if Decodes(calls, n, codec) then [n] else []);
      forall k | 0 <= k < |kept|
        ensures kept[k] < |calls| && Decodes(calls, kept[k], codec)
      {
        if k < |kept'| {
          assert kept[k] == kept'[k];
          assert front[kept'[k]] == calls[kept[k]];
        }
      }
      forall j | 0 <= j < |calls|
        ensures Decodes(calls, j, codec) <==> j in kept
      {
        if j < n {
          assert front[j] == calls[j];
          assert Decodes(front, j, codec) <==> j in kept';
          assert j in kept <==> j in kept';
        }
      }
    }
  }

  /** The k-th message answers the call at position `Kept[k]`, with that call's id and the
      dispatch of its decoded arguments. */
  lemma {:induction false} ResponsesAnswerDecodedCalls(calls: seq<ToolCall>, file: Option<UploadedFile>, env: Environment, codec: JsonCodec, bank: QuestionBank)
    ensures |Responses(calls, file, env, codec, bank)| == |Kept(calls, codec)|
    ensures forall k :: 0 <= k < |Kept(calls, codec)| ==>
      && Kept(calls, codec)[k] < |calls|
      && Decodes(calls, Kept(calls, codec)[k], codec)
      && Responses(calls, file, env, codec, bank)[k] ==
        Message(calls[Kept(calls, codec)[k]], codec.loads(calls[Kept(calls, codec)[k]].arguments).value,
          Kept(calls, codec)[k], file, env, codec, bank)
    decreases |calls|
  {
    KeptPositions(calls, codec);
    if calls != [] {
      var n := |calls| - 1;
      var front := calls[..n];
      ResponsesAnswerDecodedCalls(front, file, env, codec, bank);
      var out, kept := Responses(calls, file, env, codec, bank), Kept(calls, codec);
      var out', kept' := Responses(front, file, env, codec, bank), Kept(front, codec);
      assert out == out' + Respond(calls[n], n, file, env, codec, bank);
      assert kept == kept' + (if codec.loads(calls[n].arguments).Some? then [n] else []);
      forall k | 0 <= k < |kept|
        ensures out[k] == Message(calls[kept[k]], codec.loads(calls[kept[k]].arguments).value, kept[k], file, env, codec, bank)
      {
        if k < |kept'| {
          assert kept[k] == kept'[k] && out[k] == out'[k];
          assert front[kept'[k]] == calls[kept[k]];
        }
      }
    }
  }

  /** At most one position per call is kept, and every position is kept exactly when every
      call's arguments decode. */
  lemma {:induction false} KeptLength(calls: seq<ToolCall>, codec: JsonCodec)
    ensures |Kept(calls, codec)| <= |calls|
    ensures |Kept(calls, codec)| == |calls| <==> forall j :: 0 <= j < |calls| ==> Decodes(calls, j, codec)
    ensures (forall j :: 0 <= j < |calls| ==> Decodes(calls, j, codec)) ==>
      forall k :: 0 <= k < |calls| ==> Kept(calls, codec)[k] == k
    decreases |calls|
  {
    if calls != [] {
      var n := |calls| - 1;
      var front := calls[..n];
      KeptLength(front, codec);
      var kept, kept' := Kept(calls, codec), Kept(front, codec);
      assert kept == kept' + (if Decodes(calls, n, codec) then [n] else []);
      forall j | 0 <= j < n
        ensures Decodes(front, j, codec) <==> Decodes(calls, j, codec)
      {
        assert front[j] == calls[j];
      }
      if forall j :: 0 <= j < |calls| ==> Decodes(calls, j, codec) {
        assert Decodes(calls, n, codec);
      } else {
        var j :| 0 <= j < |calls| && !Decodes(calls, j, codec);
        if j < n {
          assert !Decodes(front, j, codec);
        }
      }
    }
  }

  /** Dropping calls can only shorten the answer; it is as long as the list exactly when every
      call's arguments decode, and then message `k` answers call `k`. */
  lemma ResponsesLength(calls: seq<ToolCall>, file: Option<UploadedFile>, env: Environment, codec: JsonCodec, bank: QuestionBank)
    ensures |Responses(calls, file, env, codec, bank)| <= |calls|
    ensures |Responses(calls, file, env, codec, bank)| == |calls| <==> forall j :: 0 <= j < |calls| ==> Decodes(calls, j, codec)
    ensures (forall j :: 0 <= j < |calls| ==> Decodes(calls, j, codec)) ==>
      forall k :: 0 <= k < |calls| ==>
        && Decodes(calls, k, codec)
        && Responses(calls, file, env, codec, bank)[k] ==
          Message(calls[k], codec.loads(calls[k].arguments).value, k, file, env, codec, bank)
  {
    ResponsesAnswerDecodedCalls(calls, file, env, codec, bank);
    KeptLength(calls, codec);
  }

  /** An unregistered name is answered with an error mapping naming it. */
  lemma UnknownNameReported(name: string, args: Json, file: Option<UploadedFile>, env: Environment, i: nat, bank: QuestionBank)
    requires name !in ToolFunctions
    ensures Keys(Dispatch(name, args, file, env, i, bank).members) == ["error"]
    ensures Field(Dispatch(name, args, file, env, i, bank), "error") == Some(Str("Unknown function: " + name))
  {
  }

  /** Arguments that decode to something other than a mapping make every registered handler's
      first `.get` raise, which the dispatcher reports as that handler's failure. */
  lemma NonMappingArguments(name: string, args: Json, file: Option<UploadedFile>, env: Environment, i: nat, bank: QuestionBank)
    requires name in ToolFunctions && !args.Obj?
    ensures Dispatch(name, args, file, env, i, bank) == ErrorMapping("Tool function " + name + " failed: " + NoGetError(args))
  {
  }

  /** Without `question_number`, `generate_excel_task` is asked for step 1. */
  lemma QuestionNumberDefaultsToOne(ms: seq<Member>, file: Option<UploadedFile>, env: Environment, i: nat, bank: QuestionBank)
    requires "question_number" !in Keys(ms)
    ensures Dispatch("generate_excel_task", Obj(ms), file, env, i, bank) ==
      Envelope("generate_excel_task",
        GenerateExcelTask(bank, Get(ms, "session_id", Null), Num(1), env.freshId(i)))
  {
    assert ToolFunctions["generate_excel_task"] == GenerateExcelTaskFn;
    InvokeGenerateReads(ms, file, env, i, bank);
    GetReads(ms, "question_number", Num(1));
  }

  /** Without `current_question`, `next_excel_question` advances from step 1. */
  lemma CurrentQuestionDefaultsToOne(ms: seq<Member>, file: Option<UploadedFile>, env: Environment, i: nat, bank: QuestionBank)
    requires "current_question" !in Keys(ms)
    ensures Dispatch("next_excel_question", Obj(ms), file, env, i, bank) ==
      Envelope("next_excel_question",
        NextExcelQuestion(bank, Get(ms, "session_id", Null), Num(1), env.freshId(i)))
  {
    assert ToolFunctions["next_excel_question"] == NextExcelQuestionFn;
    InvokeNextReads(ms, file, env, i, bank);
    GetReads(ms, "current_question", Num(1));
  }

  /** The arguments `generate_excel_task` is called with. */
  lemma InvokeGenerateReads(ms: seq<Member>, file: Option<UploadedFile>, env: Environment, i: nat, bank: QuestionBank)
    ensures Invoke(GenerateExcelTaskFn, Obj(ms), file, env, i, bank) ==
      GenerateExcelTask(bank, Get(ms, "session_id", Null), Get(ms, "question_number", Num(1)), env.freshId(i))
  {
  }

  /** The arguments `next_excel_question` is called with. */
  lemma InvokeNextReads(ms: seq<Member>, file: Option<UploadedFile>, env: Environment, i: nat, bank: QuestionBank)
    ensures Invoke(NextExcelQuestionFn, Obj(ms), file, env, i, bank) ==
      NextExcelQuestion(bank, Get(ms, "session_id", Null), Get(ms, "current_question", Num(1)), env.freshId(i))
  {
    var args := Obj(ms);
    assert args.Obj? && args.members == ms;
  }

  /** `evaluate_workbook` is given the file the caller of the dispatcher holds, whatever the
      arguments carry; without one its answer is the no-file error, even if the model passed a
      file in the arguments. */
  lemma WorkbookUsesCallerFile(ms: seq<Member>, file: Option<UploadedFile>, env: Environment, i: nat, bank: QuestionBank)
    ensures Dispatch("evaluate_workbook", Obj(ms), file, env, i, bank) ==
      EvaluateWorkbook(Get(ms, "session_id", Null), Get(ms, "task_id", Null), file, env.remote(i))
    ensures file.None? ==>
      Field(Dispatch("evaluate_workbook", Obj(ms), file, env, i, bank), "error") == Some(Str(NoFileMessage))
  {
    assert ToolFunctions["evaluate_workbook"] == EvaluateWorkbookFn;
  }

  /** `summarize_assessment` never completes: whatever the arguments, the dispatcher answers it
      with a failure. Without reportlab it is the missing library. With reportlab it is the
      handler's failure on the session id read with default `None`. When the parser accepts
      every markup-free text and the session id holds no markup, it is the missing `grade` key. */
  lemma SummaryAlwaysFails(args: Json, file: Option<UploadedFile>, env: Environment, i: nat, bank: QuestionBank)
    ensures var r := Dispatch("summarize_assessment", args, file, env, i, bank);
      && r.Obj? && Keys(r.members) == ["error"]
      && (args.Obj? && !env.reportlabAvailable ==>
        r == Envelope("summarize_assessment", Err("No module named 'reportlab'")))
      && (args.Obj? && env.reportlabAvailable ==>
        r == Envelope("summarize_assessment",
          SummarizeAssessment(Get(args.members, "session_id", Null), env.remote(i), true, env.paragraphError)))
      && (args.Obj? && env.reportlabAvailable
          && (forall s :: MarkupFree(s) ==> env.paragraphError(s).None?)
          && MarkupFree(PyStr(Get(args.members, "session_id", Null))) ==>
        r == Envelope("summarize_assessment", Err("'grade'")))
  {
    assert ToolFunctions["summarize_assessment"] == SummarizeAssessmentFn;
    if args.Obj? && env.reportlabAvailable
       && (forall s :: MarkupFree(s) ==> env.paragraphError(s).None?)
       && MarkupFree(PyStr(Get(args.members, "session_id", Null))) {
      GradeMissingForPlainSession(Get(args.members, "session_id", Null), env.remote(i), env.paragraphError);
    }
  }
}

=== FILE: evaluator.dfy ===
/** The two evaluation callers of evaluation.py (`evaluate_excel_with_llm`, `llm_evaluate_excel`).

    Building the prompt and the remote chat request are not modelled: what the request gives
    back is the parameter `RemoteOutcome`. Both callers turn every failure into a record. */
module Evaluator {
  import opened Base
  import opened JsonValue
  import opened Models

  /** What the remote request and `json.loads` of its reply produced. */
  datatype RemoteOutcome =
    | Replied(content: Json)      // the reply decoded to this value
    | Unparsable(error: string)   // `json.JSONDecodeError`, with its message
    | Failed(error: string)       // any other exception in the request, with its message

  /** The texts one caller writes into its failure records. */
  datatype FailureTexts = FailureTexts(parsePrefix: string, otherPrefix: string, advice: string)

  const FullTexts: FailureTexts := FailureTexts(
    "JSON parsing error in evaluation. Error: ",
    "Unable to evaluate the workbook at this time. Error: ",
    "Please try uploading the file again or contact support")

  const StreamlinedTexts: FailureTexts := FailureTexts(
    "JSON parsing error in streamlined evaluation. Error: ",
    "Unable to evaluate the workbook summary. Error: ",
    "Please try again or contact support")

  /** The reply decodes to a record that passes validation. */
  predicate Accepted(outcome: RemoteOutcome)
  {
    outcome.Replied? && FeedbackFromJson(outcome.content).Ok?
  }

  /** The message of the exception a failed evaluation caught. */
  function FailureMessage(outcome: RemoteOutcome): string
  {
    match outcome
    case Replied(content) => if FeedbackFromJson(content).Err? then FeedbackFromJson(content).error else ""
    case Unparsable(e) => e
    case Failed(e) => e
  }

  /** A well-formed failure record: score 0, a feedback text and exactly the one advice. */
  predicate IsFailureRecord(e: EvaluationFeedback, advice: string)
  {
    e.score == Some(0) && e.feedback.Some? && e.recommendations == Some([advice])
  }

  /** The shared body of both callers: the reply, validated, or a failure record. A decoding
      failure gets the parse prefix; a request failure or a validation failure of the reply
      (raised by the record's constructor inside the same `try`) gets the other prefix. */
  function Evaluate(outcome: RemoteOutcome, texts: FailureTexts): (e: EvaluationFeedback)
    ensures ValidScore(e.score)
    ensures Accepted(outcome) ==> e == FeedbackFromJson(outcome.content).value
    ensures !Accepted(outcome) ==> IsFailureRecord(e, texts.advice)
    ensures outcome.Unparsable? ==> e.feedback == Some(texts.parsePrefix + FailureMessage(outcome))
    ensures !Accepted(outcome) && !outcome.Unparsable? ==> e.feedback == Some(texts.otherPrefix + FailureMessage(outcome))
  {
    match outcome
    case Replied(content) =>
      (match FeedbackFromJson(content)
       case Ok(record) => record
       case Err(msg) => EvaluationFeedback(Some(0), Some(texts.otherPrefix + msg), Some([texts.advice])))
    case Unparsable(msg) => EvaluationFeedback(Some(0), Some(texts.parsePrefix + msg), Some([texts.advice]))
    case Failed(msg) => EvaluationFeedback(Some(0), Some(texts.otherPrefix + msg), Some([texts.advice]))
  }

  /** `evaluate_excel_with_llm`: the full evaluation of an uploaded workbook. */
  function EvaluateExcelWithLlm(outcome: RemoteOutcome): (e: EvaluationFeedback)
    ensures ValidScore(e.score)
    ensures Accepted(outcome) ==> e == FeedbackFromJson(outcome.content).value
    ensures !Accepted(outcome) ==> IsFailureRecord(e, FullTexts.advice)
    ensures outcome.Unparsable? ==> e.feedback == Some("JSON parsing error in evaluation. Error: " + outcome.error)
    ensures outcome.Failed? ==> e.feedback == Some("Unable to evaluate the workbook at this time. Error: " + outcome.error)
  {
    Evaluate(outcome, FullTexts)
  }

  /** `llm_evaluate_excel`: the streamlined evaluation of a workbook summary. */
  function LlmEvaluateExcel(outcome: RemoteOutcome): (e: EvaluationFeedback)
    ensures ValidScore(e.score)
    ensures Accepted(outcome) ==> e == FeedbackFromJson(outcome.content).value
    ensures !Accepted(outcome) ==> IsFailureRecord(e, StreamlinedTexts.advice)
    ensures outcome.Unparsable? ==> e.feedback == Some("JSON parsing error in streamlined evaluation. Error: " + outcome.error)
    ensures outcome.Failed? ==> e.feedback == Some("Unable to evaluate the workbook summary. Error: " + outcome.error)
  {
    Evaluate(outcome, StreamlinedTexts)
  }

  /** Whatever the outcome, the record both callers return dumps to a mapping that validates
      back to the same record, so no consumer of the dump meets an exception. */
  lemma EvaluationDumpRevalidates(outcome: RemoteOutcome)
    ensures FeedbackFromJson(DumpFeedback(EvaluateExcelWithLlm(outcome))) == Ok(EvaluateExcelWithLlm(outcome))
    ensures FeedbackFromJson(DumpFeedback(LlmEvaluateExcel(outcome))) == Ok(LlmEvaluateExcel(outcome))
  {
    FeedbackRoundTrip(EvaluateExcelWithLlm(outcome));
    FeedbackRoundTrip(LlmEvaluateExcel(outcome));
  }

  /** A reply whose score lies outside 0..10 is never passed on: the caller answers with its
      failure record instead. */
  lemma OutOfRangeScoreBecomesFailure(content: Json, n: int)
    requires Field(content, "score") == Some(Num(n))
    requires n < MinScore || n > MaxScore
    ensures EvaluateExcelWithLlm(Replied(content)).score == Some(0)
    ensures IsFailureRecord(LlmEvaluateExcel(Replied(content)), StreamlinedTexts.advice)
  {
  }
}

=== FILE: json_value.dfy ===
/** The JSON values the program passes around (Python dicts, lists and scalars). */
module JsonValue {
  import opened Base

  /** A JSON value. Objects keep their members in insertion order, as Python dicts do.
      Floating-point numbers play no role in the modelled core and are not represented. */
  datatype Json =
    | Null
    | Bool(b: bool)
    | Num(n: int)
    | Str(s: string)
    | Arr(items: seq<Json>)
    | Obj(members: seq<Member>)

  datatype Member = Member(key: string, value: Json)

  /** The keys of a mapping, in order. */
  function Keys(ms: seq<Member>): (ks: seq<string>)
    ensures |ks| == |ms|
  {
    if ms == [] then [] else [ms[0].key] + Keys(ms[1..])
  }

  /** `d.get(k)`: the value of the first member with key `k`. */
  function Lookup(ms: seq<Member>, k: string): (r: Option<Json>)
    ensures r.Some? <==> k in Keys(ms)
    ensures r.Some? ==> exists i :: 0 <= i < |ms| && ms[i] == Member(k, r.value)
  {
    if ms == [] then None
    else if ms[0].key == k then Some(ms[0].value)
    else
      var r := Lookup(ms[1..], k);
      assert r.Some? ==> exists i :: 0 <= i < |ms| && ms[i] == Member(k, r.value) by {
        if r.Some? {
          var j :| 0 <= j < |ms[1..]| && ms[1..][j] == Member(k, r.value);
          assert ms[j + 1] == Member(k, r.value);
        }
      }
      r
  }

  /** `d[k] = v`: an existing key keeps its position and gets the new value; a new key is appended. */
  function Put(ms: seq<Member>, k: string, v: Json): (r: seq<Member>)
    ensures Lookup(r, k) == Some(v)
  {
    if ms == [] then [Member(k, v)]
    else if ms[0].key == k then [Member(k, v)] + ms[1..]
    else
      var r := [ms[0]] + Put(ms[1..], k, v);
      assert r[1..] == Put(ms[1..], k, v);
      r
  }

  /** The keys of a member list with one member in front. */
  lemma KeysCons(m: Member, ms: seq<Member>)
    ensures Keys([m] + ms) == [m.key] + Keys(ms)
  {
    assert ([m] + ms)[1..] == ms;
  }

  /** Assignment keeps the key order and appends a key that was missing. */
  lemma {:induction false} PutKeys(ms: seq<Member>, k: string, v: Json)
    ensures Keys(Put(ms, k, v)) == if k in Keys(ms) then Keys(ms) else Keys(ms) + [k]
  {
    if ms != [] {
      var m, t := ms[0], ms[1..];
      assert Keys(ms) == [m.key] + Keys(t) by {
        KeysCons(m, t);
        assert [m] + t == ms;
      }
      if m.key == k {
        assert Put(ms, k, v) == [Member(k, v)] + t;
        KeysCons(Member(k, v), t);
      } else {
        PutPastHead(ms, k, v);
        PutKeys(t, k, v);
        if k !in Keys(t) {
          assert [m.key] + (Keys(t) + [k]) == ([m.key] + Keys(t)) + [k];
        }
      }
    }
  }

  /** The keys after an assignment that passes the first member. */
  lemma PutPastHead(ms: seq<Member>, k: string, v: Json)
    requires ms != [] && ms[0].key != k
    ensures Keys(Put(ms, k, v)) == [ms[0].key] + Keys(Put(ms[1..], k, v))
    ensures k in Keys(ms) <==> k in Keys(ms[1..])
  {
    KeysCons(ms[0], Put(ms[1..], k, v));
    KeysCons(ms[0], ms[1..]);
    assert [ms[0]] + ms[1..] == ms;
  }

  /** Assigning one key leaves every other key's value alone. */
  lemma {:induction false} PutOther(ms: seq<Member>, k: string, v: Json, k': string)
    requires k' != k
    ensures Lookup(Put(ms, k, v), k') == Lookup(ms, k')
  {
    if ms != [] && ms[0].key != k {
      PutOther(ms[1..], k, v, k');
      assert Put(ms, k, v)[1..] == Put(ms[1..], k, v);
    } else if ms != [] {
      assert Put(ms, k, v)[1..] == ms[1..];
    }
  }

  /** Every member after an assignment is the assigned one or an old one. */
  lemma {:induction false} PutMembers(ms: seq<Member>, k: string, v: Json, i: int)
    requires 0 <= i < |Put(ms, k, v)|
    ensures Put(ms, k, v)[i] == Member(k, v) || Put(ms, k, v)[i] in ms
  {
    if ms != [] && ms[0].key != k && i > 0 {
      PutMembers(ms[1..], k, v, i - 1);
    }
  }

  /** Assigning a new key appends it. */
  lemma {:induction false} PutAppends(ms: seq<Member>, k: string, v: Json)
    requires k !in Keys(ms)
    ensures Put(ms, k, v) == ms + [Member(k, v)]
  {
    if ms != [] {
      var m, t := ms[0], ms[1..];
      assert k != m.key && k !in Keys(t) by {
        KeysCons(m, t);
        assert [m] + t == ms;
      }
      PutAppends(t, k, v);
      assert Put(ms, k, v) == [m] + (t + [Member(k, v)]);
      assert [m] + (t + [Member(k, v)]) == ([m] + t) + [Member(k, v)];
      assert [m] + t == ms;
    }
  }

  /** Assigning the value a key already has changes nothing. */
  lemma {:induction false} PutExisting(ms: seq<Member>, k: string, v: Json)
    requires Lookup(ms, k) == Some(v)
    ensures Put(ms, k, v) == ms
  {
    if ms != [] && ms[0].key != k {
      PutExisting(ms[1..], k, v);
    }
  }

  /** `type(x).__name__` of the Python value the JSON value decodes to. */
  function TypeName(j: Json): string
  {
    match j
    case Null => "NoneType"
    case Bool(_) => "bool"
    case Num(_) => "int"
    case Str(_) => "str"
    case Arr(_) => "list"
    case Obj(_) => "dict"
  }

  /** Python truthiness of the decoded value. */
  predicate Truthy(j: Json)
  {
    match j
    case Null => false
    case Bool(b) => b
    case Num(n) => n != 0
    case Str(s) => s != []
    case Arr(items) => items != []
    case Obj(ms) => ms != []
  }

  /** The member `k` of `j` when `j` is a mapping that has it. */
  function Field(j: Json, k: string): Option<Json>
  {
    if j.Obj? then Lookup(j.members, k) else None
  }

  /** A JSON list of strings. */
  function StrList(ks: seq<string>): Json
  {
    Arr(seq(|ks|, i requires 0 <= i < |ks| => Str(ks[i])))
  }

  /** A lookup in two member lists laid end to end finds the first list's member first. */
  lemma {:induction false} LookupConcat(ms: seq<Member>, ns: seq<Member>, k: string)
    ensures Lookup(ms + ns, k) == if k in Keys(ms) then Lookup(ms, k) else Lookup(ns, k)
  {
    if ms == [] {
      assert ms + ns == ns;
    } else {
      assert (ms + ns)[0] == ms[0];
      assert (ms + ns)[1..] == ms[1..] + ns;
      assert Keys(ms) == [ms[0].key] + Keys(ms[1..]);
      LookupConcat(ms[1..], ns, k);
    }
  }

  lemma {:induction false} KeysConcat(ms: seq<Member>, ns: seq<Member>)
    ensures Keys(ms + ns) == Keys(ms) + Keys(ns)
  {
    if ms == [] {
      assert ms + ns == ns;
    } else {
      assert (ms + ns)[0] == ms[0];
      assert (ms + ns)[1..] == ms[1..] + ns;
      KeysConcat(ms[1..], ns);
      assert Keys(ms + ns) == [ms[0].key] + (Keys(ms[1..]) + Keys(ns));
    }
  }

  /** The first member with a key is the one a lookup of that key finds. */
  lemma {:induction false} LookupAt(ms: seq<Member>, i: nat)
    requires i < |ms|
    requires forall j :: 0 <= j < i ==> ms[j].key != ms[i].key
    ensures Lookup(ms, ms[i].key) == Some(ms[i].value)
  {
    if i > 0 {
      assert ms[0].key != ms[i].key;
      assert ms[1..][i - 1] == ms[i];
      forall j | 0 <= j < i - 1 ensures ms[1..][j].key != ms[i].key {
        assert ms[1..][j] == ms[j + 1];
      }
      LookupAt(ms[1..], i - 1);
    }
  }

  /** The mapping whose members pair the keys `ks` with the values `vs`, in order. */
  function Record(ks: seq<string>, vs: seq<Json>): (r: Json)
    requires |ks| == |vs|
    ensures r.Obj? && |r.members| == |ks|
  {
    Obj(seq(|ks|, i requires 0 <= i < |ks| => Member(ks[i], vs[i])))
  }

  /** No string occurs twice. */
  predicate Distinct(ks: seq<string>)
  {
    forall i, j :: 0 <= i < j < |ks| ==> ks[i] != ks[j]
  }

  lemma {:induction false} KeysAt(ms: seq<Member>, i: nat)
    requires i < |ms|
    ensures Keys(ms)[i] == ms[i].key
  {
    if i > 0 {
      assert ms[1..][i - 1] == ms[i];
      KeysAt(ms[1..], i - 1);
    }
  }

  /** A record lists exactly its keys, in order. */
  lemma RecordKeys(ks: seq<string>, vs: seq<Json>)
    requires |ks| == |vs|
    ensures Keys(Record(ks, vs).members) == ks
  {
    var ms := Record(ks, vs).members;
    forall i | 0 <= i < |ks| ensures Keys(ms)[i] == ks[i] {
      KeysAt(ms, i);
    }
  }

  /** Every field of a record with distinct keys is found by its key. */
  lemma RecordField(ks: seq<string>, vs: seq<Json>, i: nat)
    requires |ks| == |vs| && Distinct(ks)
    requires i < |ks|
    ensures Field(Record(ks, vs), ks[i]) == Some(vs[i])
  {
    var ms := Record(ks, vs).members;
    assert ms[i] == Member(ks[i], vs[i]);
    LookupAt(ms, i);
  }

  /** `{**base, **extra}`: the members of `extra` assigned one after the other onto `base`. */
  function Update(base: seq<Member>, extra: seq<Member>): seq<Member>
    decreases |extra|
  {
    if extra == [] then base else Update(Put(base, extra[0].key, extra[0].value), extra[1..])
  }

  /** Each key of `extra` is new when it is merged in, left to right. */
  predicate FreshKeys(extra: seq<Member>, base: seq<Member>)
    decreases |extra|
  {
    extra == [] || (extra[0].key !in Keys(base) && FreshKeys(extra[1..], base + [extra[0]]))
  }

  /** Merging keys that are new, one after the other, appends them. */
  lemma {:induction false} UpdateFresh(base: seq<Member>, extra: seq<Member>)
    requires FreshKeys(extra, base)
    ensures Update(base, extra) == base + extra
    decreases |extra|
  {
    if extra != [] {
      var m, rest := extra[0], extra[1..];
      PutAppends(base, m.key, m.value);
      UpdateFresh(base + [m], rest);
      assert extra == [m] + rest;
    }
  }
}

=== FILE: models.dfy ===
/** The evaluation records of models.py and the uploaded-file record the shells carry. */
module Models {
  import opened Base
  import opened JsonValue

  /** `DetailedAnalysis`: five optional free-text assessments. */
  datatype DetailedAnalysis = DetailedAnalysis(
    technicalAccuracy: Option<string>,
    pivotTables: Option<string>,
    chartsVisualization: Option<string>,
    dataOrganization: Option<string>,
    advancedFeatures: Option<string>)

  /** `EvaluationFeedback`: an optional score, optional feedback and optional recommendations. */
  datatype EvaluationFeedback = EvaluationFeedback(
    score: Option<int>,
    feedback: Option<string>,
    recommendations: Option<seq<string>>)

  /** An uploaded workbook as the shells hold it: its name and base64 text. */
  datatype UploadedFile = UploadedFile(filename: string, encodedData: string)

  const MinScore: int := 0
  const MaxScore: int := 10

  /** `Field(ge=0, le=10)` on an optional score. */
  predicate ValidScore(score: Option<int>)
  {
    score.None? || MinScore <= score.value <= MaxScore
  }

  /** The text of a pydantic validation failure on one field. */
  function ValidationError(model: string, field: string, reason: string): string
  {
    "1 validation error for " + model + "\n" + field + "\n  " + reason
  }

  /** The `TypeError` text of `Model(**data)` when `data` is not a mapping; the class is named
      with its module, as CPython names it. */
  function UnpackError(model: string, data: Json): string
  {
    "models." + model + "() argument after ** must be a mapping, not " + TypeName(data)
  }

  /** Validates an `Optional[int]` score field with its bounds; an absent field takes the default `None`.
      Lax mode accepts booleans as 0 and 1. */
  function ParseScore(v: Option<Json>): (r: Result<Option<int>>)
    ensures r.Ok? ==> ValidScore(r.value)
    ensures v.None? || v == Some(Null) ==> r == Ok(None)
    ensures v.Some? && v.value.Num? ==> (r.Ok? <==> MinScore <= v.value.n <= MaxScore)
    ensures v.Some? && v.value.Num? && MinScore <= v.value.n <= MaxScore ==> r == Ok(Some(v.value.n))
    ensures v.Some? && v.value.Bool? ==> r == Ok(Some(if v.value.b then 1 else 0))
    ensures v.Some? && !(v.value.Null? || v.value.Bool? || v.value.Num?) ==> r.Err?
  {
    match v
    case None => Ok(None)
    case Some(Null) => Ok(None)
    case Some(Bool(b)) => Ok(Some(if b then 1 else 0))
    case Some(Num(n)) =>
      if n < MinScore then Err(ValidationError("EvaluationFeedback", "score", "Input should be greater than or equal to 0"))
      else if n > MaxScore then Err(ValidationError("EvaluationFeedback", "score", "Input should be less than or equal to 10"))
      else Ok(Some(n))
    case Some(_) => Err(ValidationError("EvaluationFeedback", "score", "Input should be a valid integer"))
  }

  /** Validates an `Optional[str]` field whose default is `None`. */
  function ParseOptString(model: string, field: string, v: Option<Json>): (r: Result<Option<string>>)
    ensures v.None? || v == Some(Null) ==> r == Ok(None)
    ensures forall s :: v == Some(Str(s)) ==> r == Ok(Some(s))
    ensures r.Ok? ==> v.None? || v == Some(Null) || v.value.Str?
  {
    match v
    case None => Ok(None)
    case Some(Null) => Ok(None)
    case Some(Str(s)) => Ok(Some(s))
    case Some(_) => Err(ValidationError(model, field, "Input should be a valid string"))
  }

  /** The strings of a JSON list whose items are all strings. */
  function StringsOf(items: seq<Json>): (r: Option<seq<string>>)
    ensures r.Some? ==> |r.value| == |items| && forall i :: 0 <= i < |items| ==> items[i] == Str(r.value[i])
    ensures r.None? ==> exists i :: 0 <= i < |items| && !items[i].Str?
  {
    if items == [] then Some([])
    else if !items[0].Str? then None
    else
      var rest := StringsOf(items[1..]);
      if rest.None? then
        var i :| 0 <= i < |items[1..]| && !items[1..][i].Str?;
        assert !items[i + 1].Str?;
        None
      else Some([items[0].s] + rest.value)
  }

  lemma StringsOfStrList(ks: seq<string>)
    ensures StringsOf(StrList(ks).items) == Some(ks)
  {
    var r := StringsOf(StrList(ks).items);
    assert r.Some?;
    assert r.value == ks;
  }

  /** Validates `Optional[List[str]]` whose default is the empty list. */
  function ParseRecommendations(v: Option<Json>): (r: Result<Option<seq<string>>>)
    ensures v.None? ==> r == Ok(Some([]))
    ensures v == Some(Null) ==> r == Ok(None)
    ensures forall ks :: v == Some(StrList(ks)) ==> r == Ok(Some(ks))
    ensures r.Ok? ==> v.None? || v == Some(Null) || (v.value.Arr? && StringsOf(v.value.items).Some?)
  {
    match v
    case None => Ok(Some([]))
    case Some(Null) => Ok(None)
    case Some(Arr(items)) =>
      var strs := StringsOf(items);
      assert forall ks :: v == Some(StrList(ks)) ==> strs == Some(ks) by {
        forall ks | v == Some(StrList(ks)) ensures strs == Some(ks) {
          StringsOfStrList(ks);
        }
      }
      if strs.Some? then Ok(Some(strs.value))
      else Err(ValidationError("EvaluationFeedback", "recommendations", "Input should be a valid string"))
    case Some(_) => Err(ValidationError("EvaluationFeedback", "recommendations", "Input should be a valid list"))
  }

  /** `EvaluationFeedback(**data)`: a non-mapping cannot be unpacked; unknown keys are ignored;
      each field is validated in declaration order. */
  function FeedbackFromJson(data: Json): (r: Result<EvaluationFeedback>)
    ensures r.Ok? ==> data.Obj? && ValidScore(r.value.score)
    ensures forall n :: Field(data, "score") == Some(Num(n)) && !(MinScore <= n <= MaxScore) ==> r.Err?
    ensures !data.Obj? ==> r == Err(UnpackError("EvaluationFeedback", data))
    ensures data.Obj? ==>
      (r.Ok? <==>
        && ParseScore(Lookup(data.members, "score")).Ok?
        && ParseOptString("EvaluationFeedback", "feedback", Lookup(data.members, "feedback")).Ok?
        && ParseRecommendations(Lookup(data.members, "recommendations")).Ok?)
  {
    if !data.Obj? then Err(UnpackError("EvaluationFeedback", data))
    else
      var ms := data.members;
      match ParseScore(Lookup(ms, "score"))
      case Err(e) => Err(e)
      case Ok(score) =>
        match ParseOptString("EvaluationFeedback", "feedback", Lookup(ms, "feedback"))
        case Err(e) => Err(e)
        case Ok(feedback) =>
          match ParseRecommendations(Lookup(ms, "recommendations"))
          case Err(e) => Err(e)
          case Ok(recommendations) => Ok(EvaluationFeedback(score, feedback, recommendations))
  }

  function OptStr(o: Option<string>): Json
  {
    if o.Some? then Str(o.value) else Null
  }

  /** `model_dump()`: every field, in declaration order, `None` as null. */
  function DumpFeedback(e: EvaluationFeedback): Json
  {
    Obj([
      Member("score", if e.score.Some? then Num(e.score.value) else Null),
      Member("feedback", OptStr(e.feedback)),
      Member("recommendations", if e.recommendations.Some? then StrList(e.recommendations.value) else Null)])
  }

  /** The fields of `EvaluationFeedback`, in declaration order. */
  const FeedbackFields: seq<string> := ["score", "feedback", "recommendations"]

  /** The keys of a dumped record, in field order. */
  lemma DumpFeedbackKeys(e: EvaluationFeedback)
    ensures Keys(DumpFeedback(e).members) == FeedbackFields
  {
    var ms := DumpFeedback(e).members;
    KeysAt(ms, 0);
    KeysAt(ms, 1);
    KeysAt(ms, 2);
  }

  /** A record whose score respects its bounds survives dumping and validating again unchanged. */
  lemma FeedbackRoundTrip(e: EvaluationFeedback)
    requires ValidScore(e.score)
    ensures FeedbackFromJson(DumpFeedback(e)) == Ok(e)
  {
    var ms := DumpFeedback(e).members;
    assert Lookup(ms, "score") == Some(ms[0].value);
    assert Lookup(ms, "feedback") == Some(ms[1].value);
    assert Lookup(ms, "recommendations") == Some(ms[2].value);
  }

  /** Omitted fields take their defaults: no score, no feedback, no recommendations. */
  lemma FeedbackDefaults()
    ensures FeedbackFromJson(Obj([])) == Ok(EvaluationFeedback(None, None, Some([])))
  {
  }

  /** `DetailedAnalysis(**data)`. */
  function AnalysisFromJson(data: Json): (r: Result<DetailedAnalysis>)
    ensures r.Ok? ==> data.Obj?
    ensures data == Obj([]) ==> r == Ok(DetailedAnalysis(None, None, None, None, None))
  {
    if !data.Obj? then Err(UnpackError("DetailedAnalysis", data))
    else
      var ms := data.members;
      var m := "DetailedAnalysis";
      match ParseOptString(m, "technical_accuracy", Lookup(ms, "technical_accuracy"))
      case Err(e) => Err(e)
      case Ok(a) =>
        match ParseOptString(m, "pivot_tables", Lookup(ms, "pivot_tables"))
        case Err(e) => Err(e)
        case Ok(b) =>
          match ParseOptString(m, "charts_visualization", Lookup(ms, "charts_visualization"))
          case Err(e) => Err(e)
          case Ok(c) =>
            match ParseOptString(m, "data_organization", Lookup(ms, "data_organization"))
            case Err(e) => Err(e)
            case Ok(d) =>
              match ParseOptString(m, "advanced_features", Lookup(ms, "advanced_features"))
              case Err(e) => Err(e)
              case Ok(f) => Ok(DetailedAnalysis(a, b, c, d, f))
  }

  /** `model_dump()` of a `DetailedAnalysis`. */
  function DumpAnalysis(d: DetailedAnalysis): Json
  {
    Obj([
      Member("technical_accuracy", OptStr(d.technicalAccuracy)),
      Member("pivot_tables", OptStr(d.pivotTables)),
      Member("charts_visualization", OptStr(d.chartsVisualization)),
      Member("data_organization", OptStr(d.dataOrganization)),
      Member("advanced_features", OptStr(d.advancedFeatures))])
  }

  /** A dumped optional text validates back to itself. */
  lemma OptStrValidates(m: string, f: string, o: Option<string>)
    ensures ParseOptString(m, f, Some(OptStr(o))) == Ok(o)
  {
  }

  /** Every analysis survives dumping and validating again unchanged. */
  lemma AnalysisRoundTrip(d: DetailedAnalysis)
    ensures AnalysisFromJson(DumpAnalysis(d)) == Ok(d)
  {
    var ms := DumpAnalysis(d).members;
    var m := "DetailedAnalysis";
    assert Lookup(ms, "technical_accuracy") == Some(OptStr(d.technicalAccuracy));
    assert Lookup(ms, "pivot_tables") == Some(OptStr(d.pivotTables));
    assert Lookup(ms, "charts_visualization") == Some(OptStr(d.chartsVisualization));
    assert Lookup(ms, "data_organization") == Some(OptStr(d.dataOrganization));
    assert Lookup(ms, "advanced_features") == Some(OptStr(d.advancedFeatures));
    OptStrValidates(m, "technical_accuracy", d.technicalAccuracy);
    OptStrValidates(m, "pivot_tables", d.pivotTables);
    OptStrValidates(m, "charts_visualization", d.chartsVisualization);
    OptStrValidates(m, "data_organization", d.dataOrganization);
    OptStrValidates(m, "advanced_features", d.advancedFeatures);
  }
}

=== FILE: schema_patch.dfy ===
/** The strict-schema patcher of evaluation.py (`fix_schema_for_openai_strict`).

    The source mutates the tree in place: at each mapping it first writes the marks
    (`additionalProperties` and `required`) and then recurses into every value. Here the
    children are patched first and the marks written afterwards. `MarksFirstAgrees` proves
    that the two orders give the same tree: the values the marks write (`false` and a list
    of strings) are fixed points of the patch, and `required` is taken from the keys
    `properties` had BEFORE recursion, exactly as the source computes it. The values the
    marks overwrite are never visited by the source, so they cannot make it raise
    (`Patchable`). */
module SchemaPatch {
  import opened Base
  import opened JsonValue

  /** `obj.get("type") == "object"` */
  predicate IsObjectType(ms: seq<Member>)
  {
    Lookup(ms, "type") == Some(Str("object"))
  }

  /** Writes the strict-mode marks into one mapping whose members are `ms`: when the mapping is
      object-typed, `additionalProperties` becomes `false` and, when `props` is a mapping,
      `required` becomes its key list. */
  function MarkWith(ms: seq<Member>, objectTyped: bool, props: Option<Json>): seq<Member>
  {
    if !objectTyped then ms
    else
      var closed := Put(ms, "additionalProperties", Bool(false));
      if props.Some? && props.value.Obj? then Put(closed, "required", StrList(Keys(props.value.members)))
      else closed
  }

  /** The patcher as written: `required` lists the keys `properties` had before its own patch. */
  function Patch(x: Json): Json
    decreases x, 1
  {
    match x
    case Arr(items) => Arr(seq(|items|, i requires 0 <= i < |items| => Patch(items[i])))
    case Obj(ms) => Obj(MarkWith(PatchMembers(ms), IsObjectType(ms), Lookup(ms, "properties")))
    case _ => x
  }

  function PatchMembers(ms: seq<Member>): seq<Member>
    decreases Obj(ms), 0
  {
    seq(|ms|, i requires 0 <= i < |ms| => Member(ms[i].key, Patch(ms[i].value)))
  }

  /** The patch applied to an optional value. */
  function PatchOpt(o: Option<Json>): Option<Json>
  {
    if o.Some? then Some(Patch(o.value)) else None
  }

  /** The members whose old values the marks replace before the source recurses: `additionalProperties`
      of an object-typed mapping, and its `required` when it has `properties`. */
  predicate Overwritten(ms: seq<Member>, k: string)
  {
    IsObjectType(ms) && (k == "additionalProperties" || (k == "required" && Lookup(ms, "properties").Some?))
  }

  /** The source raises (`.keys()` on a non-mapping) when an object-typed mapping has a
      `properties` member that is not a mapping; these are the trees it accepts. It recurses
      into the values of the marked mapping, so an overwritten value is never examined. */
  predicate Patchable(x: Json)
    decreases x
  {
    match x
    case Arr(items) => forall i | 0 <= i < |items| :: Patchable(items[i])
    case Obj(ms) =>
      && (IsObjectType(ms) && Lookup(ms, "properties").Some? ==> Lookup(ms, "properties").value.Obj?)
      && forall i | 0 <= i < |ms| :: Overwritten(ms, ms[i].key) || Patchable(ms[i].value)
    case _ => true
  }

  /** Every object-typed mapping in the tree forbids additional properties. */
  predicate Closed(x: Json)
    decreases x
  {
    match x
    case Arr(items) => forall i | 0 <= i < |items| :: Closed(items[i])
    case Obj(ms) =>
      && (IsObjectType(ms) ==> Lookup(ms, "additionalProperties") == Some(Bool(false)))
      && forall i | 0 <= i < |ms| :: Closed(ms[i].value)
    case _ => true
  }

  /** A mapping whose `properties` is a mapping lists exactly its keys, in order, as `required`. */
  predicate RequiresAll(ms: seq<Member>)
  {
    var p := Lookup(ms, "properties");
    p.Some? && p.value.Obj? ==> Lookup(ms, "required") == Some(StrList(Keys(p.value.members)))
  }

  /** The strict-mode invariant: every object-typed mapping is closed and requires all its properties. */
  predicate StrictReady(x: Json)
    decreases x
  {
    match x
    case Arr(items) => forall i | 0 <= i < |items| :: StrictReady(items[i])
    case Obj(ms) =>
      && (IsObjectType(ms) ==> Lookup(ms, "additionalProperties") == Some(Bool(false)) && RequiresAll(ms))
      && forall i | 0 <= i < |ms| :: StrictReady(ms[i].value)
    case _ => true
  }

  /** The `properties` mapping of an object-typed mapping is not itself tagged `"type": "object"`. */
  predicate PropertiesUntagged(x: Json)
    decreases x
  {
    match x
    case Arr(items) => forall i | 0 <= i < |items| :: PropertiesUntagged(items[i])
    case Obj(ms) =>
      && (IsObjectType(ms) && Lookup(ms, "properties").Some? && Lookup(ms, "properties").value.Obj?
          ==> !IsObjectType(Lookup(ms, "properties").value.members))
      && forall i | 0 <= i < |ms| :: PropertiesUntagged(ms[i].value)
    case _ => true
  }

  /** `fix_schema_for_openai_strict`: `None` stands for the exception the source raises. */
  function FixSchema(x: Json): (r: Option<Json>)
    ensures r.Some? <==> Patchable(x)
    ensures r.Some? ==> r.value == Patch(x)
    ensures r.Some? ==> Closed(r.value)
    ensures r.Some? && PropertiesUntagged(x) ==> StrictReady(r.value)
  {
    if Patchable(x) then
      PatchCloses(x);
      PatchReadyWhenUntagged(x);
      Some(Patch(x))
    else None
  }

  /** The patcher with `required` taken from the patched `properties` mapping: it accepts the
      same trees, its result is always strict-ready and a second pass leaves it alone, and on
      trees without object-typed `properties` mappings it answers exactly as `FixSchema`. */
  function FixSchemaStrict(x: Json): (r: Option<Json>)
    ensures r.Some? <==> Patchable(x)
    ensures r.Some? ==> StrictReady(r.value) && PatchStrict(r.value) == r.value
    ensures PropertiesUntagged(x) ==> r == FixSchema(x)
  {
    if Patchable(x) then
      PatchStrictReady(x);
      PatchStrictIdempotent(x);
      if PropertiesUntagged(x) then
        PatchAgreesWhenUntagged(x);
        Some(PatchStrict(x))
      else Some(PatchStrict(x))
    else None
  }

  // ---------------------------------------------------------------------------------------
  // Basic facts

  /** The values the marks write are left alone by both patches. */
  lemma MarkValuesFixed(ks: seq<string>)
    ensures Patch(Bool(false)) == Bool(false)
    ensures Patch(StrList(ks)) == StrList(ks)
    ensures PatchStrict(StrList(ks)) == StrList(ks)
  {
    assert Patch(StrList(ks)).items == StrList(ks).items;
    assert PatchStrict(StrList(ks)).items == StrList(ks).items;
  }

  lemma {:induction false} LookupPatchMembers(ms: seq<Member>, k: string)
    ensures Lookup(PatchMembers(ms), k) == PatchOpt(Lookup(ms, k))
  {
    if ms != [] {
      assert PatchMembers(ms)[1..] == PatchMembers(ms[1..]);
      if ms[0].key != k {
        LookupPatchMembers(ms[1..], k);
      }
    }
  }

  /** Patching the values after an assignment is assigning the patched value. */
  lemma {:induction false} PatchMembersPut(ms: seq<Member>, k: string, v: Json)
    ensures PatchMembers(Put(ms, k, v)) == Put(PatchMembers(ms), k, Patch(v))
  {
    if ms != [] {
      assert PatchMembers(ms)[1..] == PatchMembers(ms[1..]);
      if ms[0].key != k {
        PatchMembersPut(ms[1..], k, v);
        assert PatchMembers(Put(ms, k, v))[1..] == PatchMembers(Put(ms[1..], k, v));
      } else {
        assert PatchMembers(Put(ms, k, v))[1..] == PatchMembers(ms[1..]);
      }
    }
  }

  /** The source's order: writing the marks first and then patching every value of the marked
      mapping gives the tree `Patch` builds by patching the values first. */
  lemma MarksFirstAgrees(ms: seq<Member>)
    ensures Patch(Obj(ms)) == Obj(PatchMembers(MarkWith(ms, IsObjectType(ms), Lookup(ms, "properties"))))
  {
    var props := Lookup(ms, "properties");
    if IsObjectType(ms) {
      var closed := Put(ms, "additionalProperties", Bool(false));
      PatchMembersPut(ms, "additionalProperties", Bool(false));
      if props.Some? && props.value.Obj? {
        var ks := Keys(props.value.members);
        MarkValuesFixed(ks);
        PatchMembersPut(closed, "required", StrList(ks));
      } else {
        MarkValuesFixed([]);
      }
    }
  }

  /** A mapping whose `additionalProperties` holds an object-typed mapping with a non-mapping
      `properties`: the source overwrites that value before it could look inside, so the patch
      succeeds and simply closes the mapping. */
  lemma OverwrittenValueIgnored()
    ensures var inner := Obj([Member("type", Str("object")), Member("properties", Num(1))]);
      var x := Obj([Member("type", Str("object")), Member("additionalProperties", inner)]);
      FixSchema(x) == Some(Obj([Member("type", Str("object")), Member("additionalProperties", Bool(false))]))
  {
    var inner := Obj([Member("type", Str("object")), Member("properties", Num(1))]);
    var ms := [Member("type", Str("object")), Member("additionalProperties", inner)];
    assert IsObjectType(ms);
    assert Lookup(ms, "properties") == None;
    assert Patchable(Obj(ms)) by {
      forall i | 0 <= i < |ms| ensures Overwritten(ms, ms[i].key) || Patchable(ms[i].value) {
        if i == 1 {
          assert Overwritten(ms, "additionalProperties");
        }
      }
    }
    var marked := [Member("type", Str("object")), Member("additionalProperties", Bool(false))];
    assert MarkWith(ms, true, None) == marked by {
      assert Put(ms[1..], "additionalProperties", Bool(false)) == [Member("additionalProperties", Bool(false))];
    }
    MarksFirstAgrees(ms);
    assert PatchMembers(marked) == marked;
  }

  lemma {:induction false} KeysPatchMembers(ms: seq<Member>)
    ensures Keys(PatchMembers(ms)) == Keys(ms)
  {
    if ms != [] {
      assert PatchMembers(ms)[1..] == PatchMembers(ms[1..]);
      KeysPatchMembers(ms[1..]);
    }
  }

  /** Marking touches only `additionalProperties` and `required`. */
  lemma MarkWithOther(ms: seq<Member>, t: bool, props: Option<Json>, k: string)
    requires k != "additionalProperties" && k != "required"
    ensures Lookup(MarkWith(ms, t, props), k) == Lookup(ms, k)
  {
    if t {
      var closed := Put(ms, "additionalProperties", Bool(false));
      PutOther(ms, "additionalProperties", Bool(false), k);
      if props.Some? && props.value.Obj? {
        PutOther(closed, "required", StrList(Keys(props.value.members)), k);
      }
    }
  }

  /** Marking keeps the key order and can only append the two marks. */
  lemma MarkWithKeys(ms: seq<Member>, t: bool, props: Option<Json>)
    ensures |Keys(ms)| <= |Keys(MarkWith(ms, t, props))| <= |Keys(ms)| + 2
    ensures Keys(MarkWith(ms, t, props))[..|ms|] == Keys(ms)
  {
    if t {
      var closed := Put(ms, "additionalProperties", Bool(false));
      PutKeys(ms, "additionalProperties", Bool(false));
      if props.Some? && props.value.Obj? {
        PutKeys(closed, "required", StrList(Keys(props.value.members)));
      }
    }
  }

  /** Every member after marking is an old member or carries one of the two mark values. */
  lemma MarkWithMembers(ms: seq<Member>, t: bool, props: Option<Json>, i: int)
    requires 0 <= i < |MarkWith(ms, t, props)|
    ensures var m := MarkWith(ms, t, props)[i];
      m in ms || m.value == Bool(false) || (props.Some? && props.value.Obj? && m.value == StrList(Keys(props.value.members)))
  {
    if t {
      var closed := Put(ms, "additionalProperties", Bool(false));
      if props.Some? && props.value.Obj? {
        PutMembers(closed, "required", StrList(Keys(props.value.members)), i);
        var m := MarkWith(ms, t, props)[i];
        if m in closed {
          var j :| 0 <= j < |closed| && closed[j] == m;
          PutMembers(ms, "additionalProperties", Bool(false), j);
        }
      } else {
        PutMembers(ms, "additionalProperties", Bool(false), i);
      }
    }
  }

  /** The patch never changes a value's kind, and keeps strings as they are. */
  lemma PatchKind(x: Json)
    ensures Patch(x).Obj? <==> x.Obj?
    ensures Patch(x).Arr? <==> x.Arr?
    ensures x.Str? ==> Patch(x) == x
    ensures Patch(x).Str? ==> Patch(x) == x
  {
  }

  /** Whether a mapping is object-typed is not changed by its patch. */
  lemma PatchKeepsType(ms: seq<Member>)
    ensures IsObjectType(Patch(Obj(ms)).members) == IsObjectType(ms)
  {
    var t := IsObjectType(ms);
    MarkWithOther(PatchMembers(ms), t, Lookup(ms, "properties"), "type");
    LookupPatchMembers(ms, "type");
    var o := Lookup(ms, "type");
    if o.Some? {
      PatchKind(o.value);
    }
  }

  // ---------------------------------------------------------------------------------------
  // What the patch does at one mapping (evaluation.py:28-32) and what it leaves alone

  /** An object-typed mapping ends with `additionalProperties = false`; when it has a mapping
      under `properties`, `required` is that mapping's key list in order, overwriting any
      previous value; without `properties`, `required` keeps its (patched) old value. */
  lemma PatchMarksObjectMapping(ms: seq<Member>)
    requires IsObjectType(ms)
    ensures Lookup(Patch(Obj(ms)).members, "additionalProperties") == Some(Bool(false))
    ensures var p := Lookup(ms, "properties");
      p.Some? && p.value.Obj? ==> Lookup(Patch(Obj(ms)).members, "required") == Some(StrList(Keys(p.value.members)))
    ensures Lookup(ms, "properties").None? ==>
      Lookup(Patch(Obj(ms)).members, "required") == PatchOpt(Lookup(ms, "required"))
  {
    var pm := PatchMembers(ms);
    var p := Lookup(ms, "properties");
    var closed := Put(pm, "additionalProperties", Bool(false));
    if p.Some? && p.value.Obj? {
      PutOther(closed, "required", StrList(Keys(p.value.members)), "additionalProperties");
    } else {
      PutOther(pm, "additionalProperties", Bool(false), "required");
      LookupPatchMembers(ms, "required");
    }
  }

  /** Nothing else changes: scalars stay as they are; lists keep their length and have every
      item patched; a mapping keeps its keys in order (object-typed ones may gain the two marks
      at the end), and every member other than the two marks holds its old value, patched.
      A mapping that is not object-typed keeps exactly its keys. */
  lemma PatchLeavesRestAlone(x: Json)
    ensures !x.Arr? && !x.Obj? ==> Patch(x) == x
    ensures x.Arr? ==>
              && Patch(x).Arr?
              && |Patch(x).items| == |x.items|
              && forall i :: 0 <= i < |x.items| ==> Patch(x).items[i] == Patch(x.items[i])
    ensures x.Obj? ==>
              && Patch(x).Obj?
              && |x.members| <= |Patch(x).members| <= |x.members| + 2
              && Keys(Patch(x).members)[..|x.members|] == Keys(x.members)
    ensures x.Obj? ==>
              forall k :: k != "additionalProperties" && k != "required" ==>
                Lookup(Patch(x).members, k) == PatchOpt(Lookup(x.members, k))
    ensures x.Obj? && !IsObjectType(x.members) ==> Keys(Patch(x).members) == Keys(x.members)
  {
    if x.Obj? {
      var ms := x.members;
      var pm := PatchMembers(ms);
      var t := IsObjectType(ms);
      var props := Lookup(ms, "properties");
      KeysPatchMembers(ms);
      MarkWithKeys(pm, t, props);
      forall k | k != "additionalProperties" && k != "required"
        ensures Lookup(Patch(x).members, k) == PatchOpt(Lookup(x.members, k))
      {
        MarkWithOther(pm, t, props, k);
        LookupPatchMembers(ms, k);
      }
    }
  }

  // ---------------------------------------------------------------------------------------
  // Deep properties of the patch as written

  /** Recursion reaches every nested mapping: after the patch, every object-typed mapping
      anywhere in the tree forbids additional properties. */
  lemma {:induction false} PatchCloses(x: Json)
    ensures Closed(Patch(x))
    decreases x
  {
    match x
    case Arr(items) =>
      forall i | 0 <= i < |items| ensures Closed(Patch(items[i])) {
        PatchCloses(items[i]);
      }
    case Obj(ms) =>
      var pm := PatchMembers(ms);
      var t := IsObjectType(ms);
      var props := Lookup(ms, "properties");
      var r := MarkWith(pm, t, props);
      forall i | 0 <= i < |r| ensures Closed(r[i].value) {
        MarkWithMembers(pm, t, props, i);
        if r[i] in pm {
          var j :| 0 <= j < |pm| && pm[j] == r[i];
          PatchCloses(ms[j].value);
        }
      }
      PatchKeepsType(ms);
      if t {
        PatchMarksObjectMapping(ms);
      }
    case _ =>
  }

  // ---------------------------------------------------------------------------------------
  // The corrected patcher: `required` lists the keys of the PATCHED `properties` mapping

  function PatchStrict(x: Json): Json
    decreases x, 1
  {
    match x
    case Arr(items) => Arr(seq(|items|, i requires 0 <= i < |items| => PatchStrict(items[i])))
    case Obj(ms) =>
      var pm := PatchStrictMembers(ms);
      Obj(MarkWith(pm, IsObjectType(ms), Lookup(pm, "properties")))
    case _ => x
  }

  function PatchStrictMembers(ms: seq<Member>): seq<Member>
    decreases Obj(ms), 0
  {
    seq(|ms|, i requires 0 <= i < |ms| => Member(ms[i].key, PatchStrict(ms[i].value)))
  }

  lemma {:induction false} LookupPatchStrictMembers(ms: seq<Member>, k: string)
    ensures var o := Lookup(ms, k);
      Lookup(PatchStrictMembers(ms), k) == if o.Some? then Some(PatchStrict(o.value)) else None
  {
    if ms != [] {
      assert PatchStrictMembers(ms)[1..] == PatchStrictMembers(ms[1..]);
      if ms[0].key != k {
        LookupPatchStrictMembers(ms[1..], k);
      }
    }
  }

  lemma PatchStrictKeepsType(ms: seq<Member>)
    ensures IsObjectType(PatchStrict(Obj(ms)).members) == IsObjectType(ms)
  {
    var pm := PatchStrictMembers(ms);
    MarkWithOther(pm, IsObjectType(ms), Lookup(pm, "properties"), "type");
    LookupPatchStrictMembers(ms, "type");
  }

  /** The corrected patch establishes the strict-mode invariant everywhere in the tree. */
  lemma {:induction false} PatchStrictReady(x: Json)
    ensures StrictReady(PatchStrict(x))
    decreases x
  {
    match x
    case Arr(items) =>
      forall i | 0 <= i < |items| ensures StrictReady(PatchStrict(items[i])) {
        PatchStrictReady(items[i]);
      }
    case Obj(ms) =>
      var pm := PatchStrictMembers(ms);
      var t := IsObjectType(ms);
      var props := Lookup(pm, "properties");
      var r := MarkWith(pm, t, props);
      forall i | 0 <= i < |r| ensures StrictReady(r[i].value) {
        MarkWithMembers(pm, t, props, i);
        if r[i] in pm {
          var j :| 0 <= j < |pm| && pm[j] == r[i];
          PatchStrictReady(ms[j].value);
        }
      }
      PatchStrictKeepsType(ms);
      if t {
        var closed := Put(pm, "additionalProperties", Bool(false));
        MarkWithOther(pm, t, props, "properties");
        if props.Some? && props.value.Obj? {
          PutOther(closed, "required", StrList(Keys(props.value.members)), "additionalProperties");
        }
      }
    case _ =>
  }

  /** A tree that already meets the strict-mode invariant is left unchanged. */
  lemma {:induction false} StrictReadyFixed(x: Json)
    requires StrictReady(x)
    ensures PatchStrict(x) == x
    decreases x
  {
    match x
    case Arr(items) =>
      forall i | 0 <= i < |items| ensures PatchStrict(items[i]) == items[i] {
        StrictReadyFixed(items[i]);
      }
      assert PatchStrict(x).items == items;
    case Obj(ms) =>
      forall i | 0 <= i < |ms| ensures PatchStrict(ms[i].value) == ms[i].value {
        StrictReadyFixed(ms[i].value);
      }
      var pm := PatchStrictMembers(ms);
      assert pm == ms;
      if IsObjectType(ms) {
        PutExisting(ms, "additionalProperties", Bool(false));
        var props := Lookup(ms, "properties");
        if props.Some? && props.value.Obj? {
          PutExisting(ms, "required", StrList(Keys(props.value.members)));
        }
      }
    case _ =>
  }

  /** The corrected patch is idempotent. */
  lemma PatchStrictIdempotent(x: Json)
    ensures PatchStrict(PatchStrict(x)) == PatchStrict(x)
  {
    PatchStrictReady(x);
    StrictReadyFixed(PatchStrict(x));
  }

  // ---------------------------------------------------------------------------------------
  // When the two agree, and the input on which the patch as written is not idempotent

  /** The corrected patch keeps every key of a mapping, in order. */
  lemma {:induction false} KeysPatchStrictMembers(ms: seq<Member>)
    ensures Keys(PatchStrictMembers(ms)) == Keys(ms)
  {
    if ms != [] {
      assert PatchStrictMembers(ms)[1..] == PatchStrictMembers(ms[1..]);
      KeysPatchStrictMembers(ms[1..]);
    }
  }

  /** Marking reads only the key list of `props`. */
  lemma MarkWithSameKeys(ms: seq<Member>, t: bool, p: Option<Json>, q: Option<Json>)
    requires (p.Some? && p.value.Obj?) <==> (q.Some? && q.value.Obj?)
    requires p.Some? && p.value.Obj? ==> Keys(p.value.members) == Keys(q.value.members)
    ensures MarkWith(ms, t, p) == MarkWith(ms, t, q)
  {
  }

  /** On trees whose `properties` mappings are not themselves object-typed, the patch as
      written computes the same tree as the corrected one. */
  lemma {:induction false} PatchAgreesWhenUntagged(x: Json)
    requires PropertiesUntagged(x)
    ensures Patch(x) == PatchStrict(x)
    decreases x
  {
    match x
    case Arr(items) =>
      forall i | 0 <= i < |items| ensures Patch(items[i]) == PatchStrict(items[i]) {
        PatchAgreesWhenUntagged(items[i]);
      }
      assert Patch(x).items == PatchStrict(x).items;
    case Obj(ms) =>
      forall i | 0 <= i < |ms| ensures Patch(ms[i].value) == PatchStrict(ms[i].value) {
        PatchAgreesWhenUntagged(ms[i].value);
      }
      var pm := PatchMembers(ms);
      assert pm == PatchStrictMembers(ms);
      var p := Lookup(ms, "properties");
      var q := Lookup(pm, "properties");
      LookupPatchStrictMembers(ms, "properties");
      if IsObjectType(ms) {
        if p.Some? && p.value.Obj? {
          KeysPatchStrictMembers(p.value.members);
        }
        MarkWithSameKeys(pm, true, p, q);
      }
    case _ =>
  }

  /** The patch as written keeps trees free of object-typed `properties` mappings. */
  lemma {:induction false} PatchPreservesUntagged(x: Json)
    requires PropertiesUntagged(x)
    ensures PropertiesUntagged(Patch(x))
    decreases x
  {
    match x
    case Arr(items) =>
      forall i | 0 <= i < |items| ensures PropertiesUntagged(Patch(items[i])) {
        PatchPreservesUntagged(items[i]);
      }
    case Obj(ms) =>
      var pm := PatchMembers(ms);
      var t := IsObjectType(ms);
      var props := Lookup(ms, "properties");
      var r := MarkWith(pm, t, props);
      forall i | 0 <= i < |r| ensures PropertiesUntagged(r[i].value) {
        MarkWithMembers(pm, t, props, i);
        if r[i] in pm {
          var j :| 0 <= j < |pm| && pm[j] == r[i];
          PatchPreservesUntagged(ms[j].value);
        }
      }
      PatchedPropertiesUntagged(ms);
    case _ =>
  }

  /** The top mapping's own condition survives the patch: its type and the type of its
      `properties` mapping are kept. */
  lemma PatchedPropertiesUntagged(ms: seq<Member>)
    requires IsObjectType(ms) && Lookup(ms, "properties").Some? && Lookup(ms, "properties").value.Obj?
      ==> !IsObjectType(Lookup(ms, "properties").value.members)
    ensures var r := MarkWith(PatchMembers(ms), IsObjectType(ms), Lookup(ms, "properties"));
      IsObjectType(r) && Lookup(r, "properties").Some? && Lookup(r, "properties").value.Obj?
      ==> !IsObjectType(Lookup(r, "properties").value.members)
  {
    var pm := PatchMembers(ms);
    var props := Lookup(ms, "properties");
    PatchKeepsType(ms);
    MarkWithOther(pm, IsObjectType(ms), props, "properties");
    LookupPatchMembers(ms, "properties");
    if props.Some? && props.value.Obj? {
      PatchKeepsType(props.value.members);
    }
  }

  lemma PatchReadyWhenUntagged(x: Json)
    ensures PropertiesUntagged(x) ==> StrictReady(Patch(x))
  {
    if PropertiesUntagged(x) {
      PatchAgreesWhenUntagged(x);
      PatchStrictReady(x);
    }
  }

  /** On such trees the patch as written is idempotent. */
  lemma PatchIdempotentWhenUntagged(x: Json)
    requires PropertiesUntagged(x)
    ensures Patch(Patch(x)) == Patch(x)
  {
    PatchAgreesWhenUntagged(x);
    PatchPreservesUntagged(x);
    PatchAgreesWhenUntagged(Patch(x));
    PatchStrictIdempotent(x);
  }

  /** A schema whose `properties` mapping happens to carry `"type": "object"` itself. */
  const TaggedPropertiesSchema: Json :=
    Obj([Member("type", Str("object")), Member("properties", Obj([Member("type", Str("object"))]))])

  /** The nested `properties` mapping after one patch: it gained `additionalProperties`. */
  lemma PatchTaggedInner()
    ensures Patch(Obj([Member("type", Str("object"))]))
         == Obj([Member("type", Str("object")), Member("additionalProperties", Bool(false))])
  {
    var inner := [Member("type", Str("object"))];
    assert PatchMembers(inner) == inner by {
      assert PatchMembers(inner)[0] == Member("type", Patch(Str("object")));
    }
    assert IsObjectType(inner);
    assert Lookup(inner, "properties") == None;
  }

  /** The members of the schema after their own patch. */
  lemma PatchTaggedMembers()
    ensures PatchMembers(TaggedPropertiesSchema.members) == [
      Member("type", Str("object")),
      Member("properties", Obj([Member("type", Str("object")), Member("additionalProperties", Bool(false))]))]
  {
    var ms := TaggedPropertiesSchema.members;
    PatchTaggedInner();
    assert PatchMembers(ms)[0] == Member("type", Patch(Str("object")));
    assert PatchMembers(ms)[1] == Member("properties", Patch(Obj([Member("type", Str("object"))])));
  }

  /** The keys of a two-member mapping. */
  lemma KeysOfPair(pm: seq<Member>)
    requires |pm| == 2
    ensures Keys(pm) == [pm[0].key, pm[1].key]
  {
    KeysAt(pm, 0);
    KeysAt(pm, 1);
  }

  /** Closing the top of the schema appends `additionalProperties`. */
  lemma CloseTagged(pm: seq<Member>)
    requires |pm| == 2 && pm[0].key == "type" && pm[1].key == "properties"
    ensures Put(pm, "additionalProperties", Bool(false)) == pm + [Member("additionalProperties", Bool(false))]
  {
    KeysOfPair(pm);
    PutAppends(pm, "additionalProperties", Bool(false));
  }

  /** Then `required` is appended after it. */
  lemma RequireTagged(pm: seq<Member>)
    requires |pm| == 2 && pm[0].key == "type" && pm[1].key == "properties"
    ensures Put(pm + [Member("additionalProperties", Bool(false))], "required", StrList(["type"]))
         == pm + [Member("additionalProperties", Bool(false)), Member("required", StrList(["type"]))]
  {
    var a := Member("additionalProperties", Bool(false));
    var closed := pm + [a];
    KeysConcat(pm, [a]);
    KeysOfPair(pm);
    assert Keys([a]) == ["additionalProperties"];
    assert Keys(closed) == ["type", "properties", "additionalProperties"];
    PutAppends(closed, "required", StrList(["type"]));
    assert closed + [Member("required", StrList(["type"]))] == pm + [a, Member("required", StrList(["type"]))];
  }

  /** The two marks written at the top of the schema. */
  lemma MarkTagged(pm: seq<Member>)
    requires |pm| == 2 && pm[0].key == "type" && pm[1].key == "properties"
    ensures MarkWith(pm, true, Some(Obj([Member("type", Str("object"))])))
         == [pm[0], pm[1], Member("additionalProperties", Bool(false)), Member("required", StrList(["type"]))]
  {
    assert Keys([Member("type", Str("object"))]) == ["type"];
    CloseTagged(pm);
    RequireTagged(pm);
    assert pm + [Member("additionalProperties", Bool(false)), Member("required", StrList(["type"]))]
        == [pm[0], pm[1], Member("additionalProperties", Bool(false)), Member("required", StrList(["type"]))];
  }

  /** The top of the schema is object-typed and has a `properties` mapping. */
  lemma TaggedTop()
    ensures IsObjectType(TaggedPropertiesSchema.members)
    ensures Lookup(TaggedPropertiesSchema.members, "properties") == Some(Obj([Member("type", Str("object"))]))
  {
  }

  /** The nested `properties` mapping after one patch. */
  const TaggedInnerOnce: seq<Member> := [Member("type", Str("object")), Member("additionalProperties", Bool(false))]

  /** The members of the whole schema after one patch. */
  const TaggedOnce: seq<Member> := [
    Member("type", Str("object")),
    Member("properties", Obj(TaggedInnerOnce)),
    Member("additionalProperties", Bool(false)),
    Member("required", StrList(["type"]))]

  /** The whole schema after one patch: `required` lists only the key the nested mapping had before. */
  lemma PatchTaggedOnce()
    ensures Patch(TaggedPropertiesSchema) == Obj(TaggedOnce)
  {
    var ms := TaggedPropertiesSchema.members;
    TaggedTop();
    PatchTaggedMembers();
    var pm := PatchMembers(ms);
    assert Patch(TaggedPropertiesSchema) == Obj(MarkWith(pm, true, Some(Obj([Member("type", Str("object"))]))));
    MarkTagged(pm);
    assert pm[0] == Member("type", Str("object"));
    assert pm[1] == Member("properties", Obj(TaggedInnerOnce));
  }

  /** What a second patch reads at the top of the once-patched schema. */
  lemma TaggedOnceFields()
    ensures IsObjectType(TaggedOnce)
    ensures Lookup(TaggedOnce, "properties") == Some(Obj(TaggedInnerOnce))
    ensures Lookup(TaggedOnce, "required") == Some(StrList(["type"]))
    ensures Keys(TaggedInnerOnce) == ["type", "additionalProperties"]
  {
    LookupAt(TaggedOnce, 3);
  }

  /** On it the patch as written is not idempotent and misses the strict-mode invariant: the
      nested mapping gains `additionalProperties` after `required` was computed. */
  lemma PatchNotIdempotent()
    ensures Patch(Patch(TaggedPropertiesSchema)) != Patch(TaggedPropertiesSchema)
    ensures !StrictReady(Patch(TaggedPropertiesSchema))
  {
    PatchTaggedOnce();
    TaggedOnceFields();
    assert StrList(["type", "additionalProperties"]) != StrList(["type"]) by {
      assert |StrList(["type", "additionalProperties"]).items| == 2;
    }
    assert !RequiresAll(TaggedOnce);
    PatchMarksObjectMapping(TaggedOnce);
    assert Lookup(Patch(Obj(TaggedOnce)).members, "required") != Lookup(TaggedOnce, "required");
  }
}

=== FILE: streamlit_view.dfy ===
/** The decisions inside the Streamlit front end (streamlit_app.py) that do not depend on
    rendering: which tool result `display_evaluation_results` shows and with which score band,
    the step statuses of `display_progress`, and when `handle_file_upload` replaces the stored
    upload. Streamlit calls themselves are not modelled; an exception that escapes is a value. */
module StreamlitView {
  import opened Base
  import opened JsonValue
  import opened Text
  import opened Models
  import opened Evaluator
  import opened ToolHandlers
  import opened Dispatcher

  // ----- Score bands -----

  datatype ScoreBand = Expert | Proficient | Competent | Basic | NeedsTraining

  /** The `if score >= 90 ... elif >= 80 ... elif >= 70 ... elif >= 60 ... else` chain. */
  function Band(score: int): (b: ScoreBand)
    ensures b == Expert <==> 90 <= score
    ensures b == Proficient <==> 80 <= score < 90
    ensures b == Competent <==> 70 <= score < 80
    ensures b == Basic <==> 60 <= score < 70
    ensures b == NeedsTraining <==> score < 60
  {
    if score >= 90 then Expert
    else if score >= 80 then Proficient
    else if score >= 70 then Competent
    else if score >= 60 then Basic
    else NeedsTraining
  }

  /** The bands from lowest to highest. */
  function Rank(b: ScoreBand): nat
  {
    match b
    case NeedsTraining => 0
    case Basic => 1
    case Competent => 2
    case Proficient => 3
    case Expert => 4
  }

  /** A higher score never gets a lower band. */
  lemma BandMonotone(s: int, t: int)
    requires s <= t
    ensures Rank(Band(s)) <= Rank(Band(t))
  {
  }

  /** The bands are written for a score out of 100, while the evaluation record's score is out of
      10: every score the record admits, and the missing score read as 0, needs training. */
  lemma ValidScoresNeedTraining(score: Option<int>)
    requires ValidScore(score)
    ensures Band(if score.Some? then score.value else 0) == NeedsTraining
  {
  }

  // ----- Rendering one result -----

  /** An exception that escapes `display_evaluation_results`. Only `JSONDecodeError` and
      `KeyError` are caught there. */
  datatype ViewError =
    | TypeError(message: string)
    | AttributeError(message: string)
    | ProgressOutOfRange(key: string)   // `st.progress` given a fraction outside 0..1

  /** How rendering one result mapping ends: shown with its band, or an escaping exception. */
  datatype Rendering = Shown(band: ScoreBand) | Fails(error: ViewError)

  /** The message of the `TypeError` Python raises for `x >= 90` when `x` is not a number. */
  function ComparisonError(x: Json): string
  {
    "'>=' not supported between instances of '" + TypeName(x) + "' and 'int'"
  }

  /** The band chain on the decoded score: ints and bools compare, anything else makes the first
      comparison raise. */
  function ClassifyScore(score: Json): (r: Rendering)
    ensures r.Shown? <==> IsIntLike(score)
    ensures r.Shown? ==> r.band == Band(IntOf(score))
    ensures r.Fails? ==> r.error == TypeError(ComparisonError(score))
  {
    if IsIntLike(score) then Shown(Band(IntOf(score)))
    else Fails(TypeError(ComparisonError(score)))
  }

  /** A sub-score the breakdown reads, with the maximum it is divided by. */
  datatype SubScore = SubScore(key: string, outOf: nat)

  const SubScores: seq<SubScore> := [
    SubScore("technical_accuracy", 30),
    SubScore("pivot_tables", 25),
    SubScore("visualization", 20),
    SubScore("data_organization", 15),
    SubScore("presentation", 10)]

  /** `st.progress(data.get(key, 0) / outOf)`: the division raises for a non-number, and the
      progress bar for a fraction outside 0..1. */
  function SubScoreError(ms: seq<Member>, s: SubScore): (r: Option<ViewError>)
    ensures s.key !in Keys(ms) ==> r.None?
    ensures r.None? <==> IsIntLike(Get(ms, s.key, Num(0))) && 0 <= IntOf(Get(ms, s.key, Num(0))) <= s.outOf
  {
    var v := Get(ms, s.key, Num(0));
    if !IsIntLike(v) then Some(TypeError("unsupported operand type(s) for /: '" + TypeName(v) + "' and 'int'"))
    else if IntOf(v) < 0 || IntOf(v) > s.outOf then Some(ProgressOutOfRange(s.key))
    else None
  }

  /** The first sub-score of `subs`, in order, whose bar raises. */
  function FirstSubScoreError(ms: seq<Member>, subs: seq<SubScore>): (r: Option<ViewError>)
    ensures (forall i :: 0 <= i < |subs| ==> subs[i].key !in Keys(ms)) ==> r.None?
    decreases |subs|
  {
    if subs == [] then None
    else
      match SubScoreError(ms, subs[0])
      case Some(e) => Some(e)
      case None => FirstSubScoreError(ms, subs[1..])
  }

  /** Enumerating a truthy `recommendations` raises for a number or a bool; strings, lists and
      mappings iterate. */
  function RecommendationsError(ms: seq<Member>): (r: Option<ViewError>)
    ensures r.Some? <==> Lookup(ms, "recommendations").Some? && LacksLength(Lookup(ms, "recommendations").value)
  {
    match Lookup(ms, "recommendations")
    case Some(v) => if LacksLength(v) then Some(TypeError("'" + TypeName(v) + "' object is not iterable")) else None
    case None => None
  }

  /** Rendering a result mapping whose score reads as `score`: band, breakdown, feedback and
      recommendations, in that order. */
  function RenderWith(ms: seq<Member>, score: Json): (r: Rendering)
    ensures r.Shown? <==> IsIntLike(score) && FirstSubScoreError(ms, SubScores).None? && RecommendationsError(ms).None?
    ensures r.Shown? ==> r.band == Band(IntOf(score))
    ensures !IsIntLike(score) ==> r == ClassifyScore(score)
  {
    match ClassifyScore(score)
    case Fails(e) => Fails(e)
    case Shown(band) =>
      match FirstSubScoreError(ms, SubScores)
      case Some(e) => Fails(e)
      case None =>
        match RecommendationsError(ms)
        case Some(e) => Fails(e)
        case None => Shown(band)
  }

  /** The score as each version reads it: the source takes the stored value as is; the corrected
      version reads a null score as 0, as the default of `get('score', 0)` intends. */
  function ScoreRead(ms: seq<Member>, nullAsZero: bool): Json
    requires "score" in Keys(ms)
  {
    var v := Lookup(ms, "score").value;
    if nullAsZero && v.Null? then Num(0) else v
  }

  // ----- Choosing the result to show -----

  /** The outcome of `display_evaluation_results`: the position and band of the result shown
      (it returns True), nothing shown (False), or an escaping exception. */
  datatype Display = Rendered(position: nat, band: ScoreBand) | NothingRendered | Raised(error: ViewError)

  /** What the loop does with one tool result: `None` when it moves on to the next one. A result
      is looked at when it is a tool message whose content mentions "score"; undecodable content
      is skipped; a decoded value is used when `"score" in` it holds, which for a non-mapping then
      fails on `.get`. */
  function Examine(m: ToolMessage, codec: JsonCodec, nullAsZero: bool): (r: Option<Rendering>)
    ensures !(m.role == "tool" && Contains(m.content, "score")) ==> r.None?
    ensures codec.loads(m.content).None? ==> r.None?
    ensures r.Some? && r.value.Shown? ==>
      && codec.loads(m.content).Some?
      && codec.loads(m.content).value.Obj?
      && "score" in Keys(codec.loads(m.content).value.members)
  {
    if !(m.role == "tool" && Contains(m.content, "score")) then None
    else
      match codec.loads(m.content)
      case None => None
      case Some(data) => ExamineDecoded(data, nullAsZero)
  }

  /** The `"score" in data` test on a decoded result, and its rendering when it holds. */
  function ExamineDecoded(data: Json, nullAsZero: bool): (r: Option<Rendering>)
    ensures r.Some? && r.value.Shown? ==> data.Obj? && "score" in Keys(data.members)
    ensures data.Obj? ==> (r.Some? <==> "score" in Keys(data.members))
    ensures data.Obj? && "score" in Keys(data.members) ==>
      r == Some(RenderWith(data.members, ScoreRead(data.members, nullAsZero)))
    ensures !data.Obj? && !data.Str? && !data.Arr? ==> r.Some? && r.value.Fails?
  {
    match data
    case Obj(ms) => if "score" in Keys(ms) then Some(RenderWith(ms, ScoreRead(ms, nullAsZero))) else None
    case Str(s) => if Contains(s, "score") then Some(Fails(AttributeError(NoGetError(data)))) else None
    case Arr(items) => if Str("score") in items then Some(Fails(AttributeError(NoGetError(data)))) else None
    case _ => Some(Fails(TypeError("argument of type '" + TypeName(data) + "' is not iterable")))
  }

  /** The outcome once result `k` has been examined. */
  function Outcome(k: nat, r: Rendering): Display
  {
    match r
    case Shown(band) => Rendered(k, band)
    case Fails(e) => Raised(e)
  }

  /** What the loop does with each result, in order. */
  function Examined(results: seq<ToolMessage>, codec: JsonCodec, nullAsZero: bool): (ds: seq<Option<Rendering>>)
    ensures |ds| == |results|
    ensures forall i :: 0 <= i < |results| ==> ds[i] == Examine(results[i], codec, nullAsZero)
  {
    seq(|results|, i requires 0 <= i < |results| => Examine(results[i], codec, nullAsZero))
  }

  /** The loop from position `k` on, given what it does with each result: it stops at the first
      result it does not move past, and shows nothing only when it moves past all of them. */
  function Scan(ds: seq<Option<Rendering>>, k: nat): (r: Display)
    ensures r.Rendered? ==>
      && k <= r.position < |ds|
      && ds[r.position] == Some(Shown(r.band))
      && (forall q :: k <= q < r.position ==> ds[q].None?)
    ensures r.Raised? ==>
      exists p :: k <= p < |ds| && ds[p] == Some(Fails(r.error)) && forall q :: k <= q < p ==> ds[q].None?
    ensures r.NothingRendered? <==> forall q :: k <= q < |ds| ==> ds[q].None?
    decreases |ds| - k
  {
    if k >= |ds| then NothingRendered
    else
      match ds[k]
      case None => Scan(ds, k + 1)
      case Some(r) => Outcome(k, r)
  }

  /** `display_evaluation_results(tool_results)` as written: the first result the loop stops at
      decides, and nothing is shown only when the loop passes over every result. */
  function DisplayEvaluationResults(results: seq<ToolMessage>, codec: JsonCodec): (r: Display)
    ensures r.Rendered? ==>
      && r.position < |results|
      && Examine(results[r.position], codec, false) == Some(Shown(r.band))
      && (forall q :: 0 <= q < r.position ==> Examine(results[q], codec, false).None?)
    ensures r.Raised? ==>
      exists p :: 0 <= p < |results| && Examine(results[p], codec, false) == Some(Fails(r.error))
        && forall q :: 0 <= q < p ==> Examine(results[q], codec, false).None?
    ensures r.NothingRendered? <==> forall q :: 0 <= q < |results| ==> Examine(results[q], codec, false).None?
  {
    Scan(Examined(results, codec, false), 0)
  }

  /** `display_evaluation_results` with a null score read as 0: the same choice of result, and a
      null score no longer raises. */
  function DisplayEvaluationResultsFixed(results: seq<ToolMessage>, codec: JsonCodec): (r: Display)
    ensures r.Rendered? ==>
      && r.position < |results|
      && Examine(results[r.position], codec, true) == Some(Shown(r.band))
      && (forall q :: 0 <= q < r.position ==> Examine(results[q], codec, true).None?)
    ensures r.Raised? ==>
      exists p :: 0 <= p < |results| && Examine(results[p], codec, true) == Some(Fails(r.error))
        && forall q :: 0 <= q < p ==> Examine(results[q], codec, true).None?
    ensures r.NothingRendered? <==> forall q :: 0 <= q < |results| ==> Examine(results[q], codec, true).None?
  {
    Scan(Examined(results, codec, true), 0)
  }

  /** Results the loop moves past do not matter: from any `k` up to `p` the outcome is the one
      from `p`. */
  lemma {:induction false} SkippedPrefix(ds: seq<Option<Rendering>>, k: nat, p: nat)
    requires k <= p <= |ds|
    requires forall q :: k <= q < p ==> ds[q].None?
    ensures Scan(ds, k) == Scan(ds, p)
    decreases p - k
  {
    if k < p {
      assert Scan(ds, k) == Scan(ds, k + 1);
      SkippedPrefix(ds, k + 1, p);
    }
  }

  /** The first result the loop does not move past decides the outcome, and when it moves past
      all of them nothing is rendered. */
  lemma FirstExaminedDecides(results: seq<ToolMessage>, codec: JsonCodec, nullAsZero: bool, p: nat)
    requires p <= |results|
    requires forall q :: 0 <= q < p ==> Examine(results[q], codec, nullAsZero).None?
    ensures p == |results| ==> Scan(Examined(results, codec, nullAsZero), 0) == NothingRendered
    ensures p < |results| && Examine(results[p], codec, nullAsZero).Some? ==>
      Scan(Examined(results, codec, nullAsZero), 0) == Outcome(p, Examine(results[p], codec, nullAsZero).value)
  {
    var ds := Examined(results, codec, nullAsZero);
    SkippedPrefix(ds, 0, p);
  }

  /** A rendered result is the first one the loop stops at: it is a tool message whose content
      decodes to a mapping with a score, and every earlier result was passed over. */
  lemma RenderedIsFirst(results: seq<ToolMessage>, codec: JsonCodec, nullAsZero: bool)
    requires Scan(Examined(results, codec, nullAsZero), 0).Rendered?
    ensures var p := Scan(Examined(results, codec, nullAsZero), 0).position;
      && p < |results|
      && results[p].role == "tool"
      && Contains(results[p].content, "score")
      && codec.loads(results[p].content).Some?
      && codec.loads(results[p].content).value.Obj?
      && "score" in Keys(codec.loads(results[p].content).value.members)
      && (forall q :: 0 <= q < p ==> Examine(results[q], codec, nullAsZero).None?)
  {
    var ds := Examined(results, codec, nullAsZero);
    var p := Scan(ds, 0).position;
    assert ds[p] == Examine(results[p], codec, nullAsZero);
  }

  // ----- The null score -----

  const NullScoreError: ViewError := TypeError(ComparisonError(Null))

  /** The null-score message opens with `'>` and is 60 characters long. */
  lemma NullScoreMessage()
    ensures var e := NullScoreError.message; |e| == 60 && e[0] == '\'' && e[1] == '>'
  {
    var a := "'>=' not supported between instances of '";
    var m := a + "NoneType" + "' and 'int'";
    assert NullScoreError.message == m by {
      assert TypeName(Null) == "NoneType";
    }
    assert |a| == 41 && a[0] == '\'' && a[1] == '>';
    assert m[0] == a[0] && m[1] == a[1];
  }

  /** Reading a null score as 0 changes how a result is drawn, never whether the loop stops at it. */
  lemma ExamineStopsAlike(m: ToolMessage, codec: JsonCodec)
    ensures Examine(m, codec, false).None? <==> Examine(m, codec, true).None?
  {
  }

  /** A result mapping with a null score: as written the band comparison raises whatever else the
      mapping holds; read as 0 it is shown as needing training exactly when its breakdown and
      recommendations draw. */
  lemma NullScoreRendering(ms: seq<Member>)
    requires "score" in Keys(ms) && Lookup(ms, "score") == Some(Null)
    ensures ExamineDecoded(Obj(ms), false) == Some(Fails(NullScoreError))
    ensures ExamineDecoded(Obj(ms), true) == Some(Shown(NeedsTraining)) <==>
      FirstSubScoreError(ms, SubScores).None? && RecommendationsError(ms).None?
  {
    assert ScoreRead(ms, false) == Null;
    assert ScoreRead(ms, true) == Num(0);
    assert ClassifyScore(Null) == Fails(NullScoreError);
  }

  /** As written, the first result the loop stops at having a null score makes the page raise; the
      corrected version shows that result as needing training exactly when its breakdown and
      recommendations draw. */
  lemma NullScoreRaises(results: seq<ToolMessage>, codec: JsonCodec, p: nat, ms: seq<Member>)
    requires p < |results|
    requires forall q :: 0 <= q < p ==> Examine(results[q], codec, false).None?
    requires results[p].role == "tool" && Contains(results[p].content, "score")
    requires codec.loads(results[p].content) == Some(Obj(ms))
    requires "score" in Keys(ms) && Lookup(ms, "score") == Some(Null)
    ensures DisplayEvaluationResults(results, codec) == Raised(NullScoreError)
    ensures DisplayEvaluationResultsFixed(results, codec) == Rendered(p, NeedsTraining) <==>
      FirstSubScoreError(ms, SubScores).None? && RecommendationsError(ms).None?
  {
    forall q | 0 <= q < p ensures Examine(results[q], codec, true).None? {
      ExamineStopsAlike(results[q], codec);
    }
    NullScoreRendering(ms);
    FirstExaminedDecides(results, codec, false, p);
    FirstExaminedDecides(results, codec, true, p);
  }

  /** The corrected page never raises the null-score comparison: a null score is read as 0, and
      every other failure has a different message. */
  lemma FixedNeverRaisesNullScore(results: seq<ToolMessage>, codec: JsonCodec)
    ensures DisplayEvaluationResultsFixed(results, codec) != Raised(NullScoreError)
  {
    var d := DisplayEvaluationResultsFixed(results, codec);
    if d.Raised? {
      var p :| 0 <= p < |results| && Examine(results[p], codec, true) == Some(Fails(d.error));
      FixedExamineNeverNullScore(results[p], codec);
    }
  }

  /** No single result, with a null score read as 0, fails with the null-score comparison. */
  lemma FixedExamineNeverNullScore(m: ToolMessage, codec: JsonCodec)
    ensures Examine(m, codec, true) != Some(Fails(NullScoreError))
  {
    if m.role == "tool" && Contains(m.content, "score") && codec.loads(m.content).Some? {
      var data := codec.loads(m.content).value;
      if data.Obj? && "score" in Keys(data.members) {
        RenderNeverNullScore(data.members, ScoreRead(data.members, true));
      } else if !data.Obj? && !data.Str? && !data.Arr? {
        var msg := "argument of type '" + TypeName(data) + "' is not iterable";
        assert ExamineDecoded(data, true) == Some(Fails(TypeError(msg)));
        assert msg[0] == 'a';
        NullScoreMessage();
      }
    }
  }

  /** Drawing a mapping whose score is not null never fails with the null-score comparison. */
  lemma RenderNeverNullScore(ms: seq<Member>, score: Json)
    requires !score.Null?
    ensures RenderWith(ms, score) != Fails(NullScoreError)
  {
    NullScoreMessage();
    if !IsIntLike(score) {
      assert |ComparisonError(score)| < |NullScoreError.message|;
    } else {
      NoBreakdownNullScore(ms, SubScores);
      NoRecommendationsNullScore(ms);
    }
  }

  /** Enumerating the recommendations never fails with the null-score comparison. */
  lemma NoRecommendationsNullScore(ms: seq<Member>)
    ensures RecommendationsError(ms) != Some(NullScoreError)
  {
    var rec := Lookup(ms, "recommendations");
    if rec.Some? && LacksLength(rec.value) {
      var msg := "'" + TypeName(rec.value) + "' object is not iterable";
      assert RecommendationsError(ms) == Some(TypeError(msg));
      assert msg[1] == TypeName(rec.value)[0] != '>';
      NullScoreMessage();
    }
  }

  /** No bar of the breakdown fails with the null-score comparison. */
  lemma {:induction false} NoBreakdownNullScore(ms: seq<Member>, subs: seq<SubScore>)
    ensures FirstSubScoreError(ms, subs) != Some(NullScoreError)
    decreases |subs|
  {
    if subs != [] {
      var v := Get(ms, subs[0].key, Num(0));
      if !IsIntLike(v) {
        var msg := "unsupported operand type(s) for /: '" + TypeName(v) + "' and 'int'";
        assert SubScoreError(ms, subs[0]) == Some(TypeError(msg));
        assert msg[0] == 'u';
        NullScoreMessage();
      }
      NoBreakdownNullScore(ms, subs[1..]);
    }
  }

  /** A one-message witness: a tool message holding just `{"score": null}`. */
  lemma NullScoreWitness(codec: JsonCodec)
    requires codec.loads("{\"score\": null}") == Some(Obj([Member("score", Null)]))
    ensures DisplayEvaluationResults([ToolMessage("tool", "call", "{\"score\": null}")], codec) == Raised(NullScoreError)
    ensures DisplayEvaluationResultsFixed([ToolMessage("tool", "call", "{\"score\": null}")], codec) == Rendered(0, NeedsTraining)
  {
    var content := "{\"score\": null}";
    assert OccursAt(content, "score", 2);
    var ms := [Member("score", Null)];
    assert Keys(ms) == ["score"];
    NullScoreRaises([ToolMessage("tool", "call", content)], codec, 0, ms);
  }

  /** The evaluator accepts a reply without a score, and `evaluate_workbook` then reports the
      score as null, with an empty list of recommendations. */
  lemma WorkbookReportsNullScore(sessionId: Json, taskId: Json, f: UploadedFile)
    ensures Field(EvaluateWorkbook(sessionId, taskId, Some(f), Replied(Obj([]))), "score") == Some(Null)
    ensures Field(EvaluateWorkbook(sessionId, taskId, Some(f), Replied(Obj([]))), "recommendations") == Some(StrList([]))
  {
    var e := EvaluateExcelWithLlm(Replied(Obj([])));
    FeedbackDefaults();
    assert e == EvaluationFeedback(None, None, Some([]));
    var dump := DumpFeedback(e).members;
    assert dump == [Member("score", Null), Member("feedback", Null), Member("recommendations", StrList([]))];
    LookupAt(dump, 0);
    LookupAt(dump, 2);
    var ks := ["session_id", "task_id", "filename"];
    var vs := [sessionId, taskId, Str(f.filename)];
    var base := Record(ks, vs).members;
    RecordKeys(ks, vs);
    MergeEvaluation(base, e);
    LookupConcat(base, dump, "score");
    LookupConcat(base, dump, "recommendations");
  }

  /** End to end: an `evaluate_workbook` call whose remote reply carries no score is answered with
      a tool message that, fed to the page, makes the page as written raise, while the corrected
      page shows it as needing training. The codec is assumed to read back what it writes and to
      spell out the `score` key. */
  lemma DispatchedNullScoreRaises(call: ToolCall, ms: seq<Member>, i: nat, f: UploadedFile, env: Environment,
                                  codec: JsonCodec, bank: QuestionBank)
    requires call.name == "evaluate_workbook"
    requires env.remote(i) == Replied(Obj([]))
    requires var r := Dispatch(call.name, Obj(ms), Some(f), env, i, bank);
      codec.loads(codec.dumps(r)) == Some(r) && Contains(codec.dumps(r), "score")
    ensures var m := Message(call, Obj(ms), i, Some(f), env, codec, bank);
      DisplayEvaluationResults([m], codec) == Raised(NullScoreError)
    ensures var m := Message(call, Obj(ms), i, Some(f), env, codec, bank);
      DisplayEvaluationResultsFixed([m], codec) == Rendered(0, NeedsTraining)
  {
    var sid, tid := Get(ms, "session_id", Null), Get(ms, "task_id", Null);
    WorkbookUsesCallerFile(ms, Some(f), env, i, bank);
    var r := EvaluateWorkbook(sid, tid, Some(f), Replied(Obj([])));
    WorkbookNullRecordDraws(sid, tid, f);
    var m := Message(call, Obj(ms), i, Some(f), env, codec, bank);
    assert m.content == codec.dumps(r);
    NullScoreRaises([m], codec, 0, r.members);
  }

  /** The record `evaluate_workbook` builds from a reply without a score holds a null score,
      no sub-scores and an empty list of recommendations, so only the score can fail to draw. */
  lemma WorkbookNullRecordDraws(sessionId: Json, taskId: Json, f: UploadedFile)
    ensures var r := EvaluateWorkbook(sessionId, taskId, Some(f), Replied(Obj([])));
      && r.Obj? && "score" in Keys(r.members) && Lookup(r.members, "score") == Some(Null)
      && FirstSubScoreError(r.members, SubScores).None? && RecommendationsError(r.members).None?
  {
    var r := EvaluateWorkbook(sessionId, taskId, Some(f), Replied(Obj([])));
    WorkbookRecord(sessionId, taskId, Some(f), Replied(Obj([])));
    WorkbookReportsNullScore(sessionId, taskId, f);
    WorkbookKeysDraw(r.members);
  }

  /** A mapping with the workbook record's six keys and an empty recommendation list draws its
      breakdown and its recommendations. */
  lemma WorkbookKeysDraw(rs: seq<Member>)
    requires Keys(rs) == ["session_id", "task_id", "filename"] + FeedbackFields
    requires Lookup(rs, "recommendations") == Some(StrList([]))
    ensures "score" in Keys(rs)
    ensures FirstSubScoreError(rs, SubScores).None? && RecommendationsError(rs).None?
  {
    var ks := ["session_id", "task_id", "filename", "score", "feedback", "recommendations"];
    assert Keys(rs) == ks;
    assert ks[3] == "score";
    forall i | 0 <= i < |SubScores| ensures SubScores[i].key !in Keys(rs) {
    }
  }

  // ----- Progress -----

  datatype StepStatus = Done | InProgress | Pending

  /** The status line of step `i` (counted from 1) while the current question is `q`. */
  function StepStatusOf(i: int, q: int): (s: StepStatus)
    ensures s == Done <==> i < q
    ensures s == InProgress <==> i == q
    ensures s == Pending <==> i > q
  {
    if i < q then Done else if i == q then InProgress else Pending
  }

  const ProgressSteps: seq<string> := [
    "📥 Download Sample File",
    "📊 Basic Pivot Table",
    "📈 Create Chart",
    "🔍 Advanced Analysis",
    "💡 Calculated Fields",
    "📤 Upload & Review"]

  /** The statuses of steps 1..n. */
  function Statuses(n: nat, q: int): (r: seq<StepStatus>)
    ensures |r| == n
    ensures forall i :: 0 <= i < n ==> r[i] == StepStatusOf(i + 1, q)
  {
    if n == 0 then [] else Statuses(n - 1, q) + [StepStatusOf(n, q)]
  }

  /** `display_progress()`: nothing unless a question is under way, else one status per step. */
  function DisplayProgress(q: int): (r: Option<seq<StepStatus>>)
    ensures r.Some? <==> q > 0
    ensures r.Some? ==> |r.value| == |ProgressSteps|
  {
    if q > 0 then Some(Statuses(|ProgressSteps|, q)) else None
  }

  /** The number of entries equal to `x`. */
  function Count(s: seq<StepStatus>, x: StepStatus): nat
  {
    if s == [] then 0 else Count(s[..|s| - 1], x) + (if s[|s| - 1] == x then 1 else 0)
  }

  /** Of n steps, exactly one is in progress when `q` is one of them and none otherwise; the steps
      before `q` are done and the rest pending. */
  lemma {:induction false} StatusCounts(n: nat, q: int)
    ensures Count(Statuses(n, q), InProgress) == if 1 <= q <= n then 1 else 0
    ensures Count(Statuses(n, q), Done) == if q <= 1 then 0 else if q - 1 <= n then q - 1 else n
    ensures Count(Statuses(n, q), Pending) == if q >= n then 0 else if q >= 0 then n - q else n
  {
    if n > 0 {
      StatusCounts(n - 1, q);
      assert Statuses(n, q)[..n - 1] == Statuses(n - 1, q);
    }
  }

  /** For question 1..6 exactly one line shows the step in progress. */
  lemma OneStepInProgress(q: int)
    requires 1 <= q <= |ProgressSteps|
    ensures DisplayProgress(q).Some?
    ensures Count(DisplayProgress(q).value, InProgress) == 1
    ensures Count(DisplayProgress(q).value, Done) == q - 1
  {
    StatusCounts(|ProgressSteps|, q);
  }

  // ----- Upload -----

  /** What `handle_file_upload` changes: the stored upload, and, for a new file, the chat message
      asking for the evaluation and its conversation-history counterpart. */
  datatype UploadEffect = UploadEffect(stored: Option<UploadedFile>, chatMessage: Option<string>, historyMessage: Option<string>)

  function EvaluationRequest(name: string): string
  {
    "I have uploaded my Excel file: " + name + ". Please evaluate my work."
  }

  /** `handle_file_upload()` with a file in the uploader. */
  function HandleFileUpload(stored: Option<UploadedFile>, uploaded: UploadedFile): (r: UploadEffect)
    ensures r.chatMessage.Some? <==> stored.None? || stored.value.filename != uploaded.filename
    ensures r.chatMessage.Some? ==> r.stored == Some(uploaded)
    ensures r.chatMessage.Some? ==> r.chatMessage.value == EvaluationRequest(uploaded.filename)
    ensures r.chatMessage.Some? ==>
      r.historyMessage == Some(EvaluationRequest(uploaded.filename) + " [FILE UPLOADED: " + uploaded.filename + "]")
    ensures r.chatMessage.None? ==> r == UploadEffect(stored, None, None)
  {
    if stored.None? || stored.value.filename != uploaded.filename then
      var request := EvaluationRequest(uploaded.filename);
      UploadEffect(Some(uploaded), Some(request), Some(request + " [FILE UPLOADED: " + uploaded.filename + "]"))
    else
      UploadEffect(stored, None, None)
  }

  /** The rerun that follows a new upload sees the same file and changes nothing, so the
      evaluation is requested once. */
  lemma UploadSettles(stored: Option<UploadedFile>, f: UploadedFile)
    ensures var r := HandleFileUpload(stored, f);
      HandleFileUpload(r.stored, f) == UploadEffect(r.stored, None, None)
  {
  }

  /** The test compares names only: a different workbook under the stored name is not taken. */
  lemma SameNameKeepsStored(g: UploadedFile, f: UploadedFile)
    requires g.filename == f.filename
    ensures HandleFileUpload(Some(g), f).stored == Some(g)
    ensures HandleFileUpload(Some(g), f).chatMessage.None?
  {
  }
}

=== FILE: text.dfy ===
/** String helpers: ASCII lower-casing, substring search and decimal rendering. */
module Text {

  function LowerChar(c: char): char
  {
    if 'A' <= c <= 'Z' then (c as int + 32) as char else c
  }

  /** `str.lower()` restricted to ASCII letters. */
  function Lower(s: string): (r: string)
    ensures |r| == |s|
  {
    seq(|s|, i requires 0 <= i < |s| => LowerChar(s[i]))
  }

  /** `sub` occurs in `s` starting at index `i`. */
  predicate OccursAt(s: string, sub: string, i: int)
  {
    0 <= i && i + |sub| <= |s| && s[i..i + |sub|] == sub
  }

  /** Python's `sub in s` for strings. */
  predicate Contains(s: string, sub: string)
  {
    exists i | 0 <= i <= |s| - |sub| :: OccursAt(s, sub, i)
  }

  /** Lower-casing twice is lower-casing once. */
  lemma LowerIdempotent(s: string)
    ensures Lower(Lower(s)) == Lower(s)
  {
    forall i | 0 <= i < |s| ensures Lower(Lower(s))[i] == Lower(s)[i] {
      var c := s[i];
      if 'A' <= c <= 'Z' {
        assert 'a' <= LowerChar(c) <= 'z';
      }
    }
  }

  /** Lower-casing distributes over concatenation. */
  lemma LowerAppend(s: string, t: string)
    ensures Lower(s + t) == Lower(s) + Lower(t)
  {
  }

  /** A substring stays a substring when text is added on either side. */
  lemma ContainsExtend(s: string, t: string, sub: string)
    requires Contains(s, sub)
    ensures Contains(s + t, sub) && Contains(t + s, sub)
  {
    var i :| 0 <= i <= |s| - |sub| && OccursAt(s, sub, i);
    assert (s + t)[i..i + |sub|] == s[i..i + |sub|];
    assert OccursAt(s + t, sub, i);
    assert (t + s)[|t| + i..|t| + i + |sub|] == s[i..i + |sub|];
    assert OccursAt(t + s, sub, |t| + i);
  }

  /** Substring search: the first loop of `sub in s`. */
  method FindSubstring(s: string, sub: string) returns (found: bool)
    ensures found <==> Contains(s, sub)
  {
    if |sub| > |s| {
      return false;
    }
    var i := 0;
    while i + |sub| <= |s|
      invariant 0 <= i <= |s| - |sub| + 1
      invariant forall j :: 0 <= j < i ==> !OccursAt(s, sub, j)
      decreases |s| - i
    {
      if s[i..i + |sub|] == sub {
        assert OccursAt(s, sub, i);
        return true;
      }
      i := i + 1;
    }
    return false;
  }

  function DigitChar(d: nat): char
    requires d < 10
  {
    "0123456789"[d]
  }

  /** `str(n)` for a non-negative integer. */
  function NatToDecimal(n: nat): (r: string)
    ensures |r| >= 1
    decreases n
  {
    if n < 10 then [DigitChar(n)] else NatToDecimal(n / 10) + [DigitChar(n % 10)]
  }

  /** `str(n)` for an integer. */
  function IntToDecimal(n: int): string
  {
    if n < 0 then "-" + NatToDecimal(-n) else NatToDecimal(n)
  }
}

=== FILE: tool_handlers.dfy ===
/** The tool handlers of tool_handlers.py and their registry `TOOL_FUNCTIONS`.

    Every handler receives its arguments as the JSON values the dispatcher pulled out of the
    decoded argument mapping, so an argument of an unexpected type reaches the handler and is
    modelled. Fresh identifiers (`uuid.uuid4()`) and the outcome of the remote evaluation are
    parameters. A handler that raises returns `Err` with the text of the exception. */
module ToolHandlers {
  import opened Base
  import opened JsonValue
  import opened Text
  import opened Models
  import opened Evaluator

  /** One step of the assessment as the task table describes it. */
  datatype TaskEntry = TaskEntry(title: string, question: string, task: string, expectedResponse: string)

  /** A question bank: one entry per step, step `n` at index `n - 1`. */
  type QuestionBank = b: seq<TaskEntry> | |b| == TotalSteps
    witness seq(TotalSteps, _ => TaskEntry("", "", "", ""))

  /** The bank `generate_excel_task` defines, keyed 1..6 in the source: step 1 is the download,
      step 6 the upload. The handlers take the bank as a parameter, so that proofs about them
      need not carry its texts; the program's entry `Dispatcher.HandleProgramToolCalls` passes
      this one. */
  const TaskTable: seq<TaskEntry> := [
    TaskEntry(
      "📥 Download Sample Data",
      "First, let's get you set up with the sample data. Please "
        + "download the file 'dummy_excel_assessment_data.xlsx' from "
        + "the assessment directory. This file contains sales data "
        + "that you'll use for all the Excel tasks. Have you "
        + "successfully downloaded and opened the file?",
      "Download and open the sample Excel file",
      "Confirmation that file is downloaded and opened"),
    TaskEntry(
      "📊 Question 1: Basic Pivot Table",
      "Great! Now let's start with your first Excel task. Create a "
        + "pivot table that shows the total revenue by region. Place "
        + "the 'Region' field in the Rows area and 'Revenue' in the "
        + "Values area. Once you've created this pivot table, let me "
        + "know what regions you see and which region has the highest "
        + "revenue.",
      "Create a basic pivot table showing revenue by region",
      "List of regions and identification of highest revenue region"),
    TaskEntry(
      "📈 Question 2: Chart Creation",
      "Excellent work on the pivot table! Now, let's add "
        + "visualization. Create a bar chart based on your pivot table "
        + "to show the revenue by region visually. After creating the "
        + "chart, tell me: What type of chart did you choose and what "
        + "insights can you gather from the visual representation of "
        + "the data?",
      "Add a bar chart to visualize the pivot table data",
      "Description of chart type and data insights"),
    TaskEntry(
      "🔍 Question 3: Advanced Analysis",
      "Perfect! Now let's do some deeper analysis. Create a new "
        + "pivot table that breaks down sales by both 'Product "
        + "Category' and 'Region'. This should show you how different "
        + "product categories perform in each region. What's the "
        + "top-selling product category overall, and which "
        + "region-product combination generates the most revenue?",
      "Create advanced pivot table with Product Category and Region",
      "Top product category and best region-product combination"),
    TaskEntry(
      "💡 Question 4: Calculated Fields",
      "Great analysis! Now let's work with formulas. Add a new "
        + "column called 'Profit Margin' that calculates the "
        + "difference between Revenue and Cost (Revenue - Cost). Then "
        + "apply conditional formatting to highlight profit margins "
        + "above $1000 in green and below $500 in red. What's the "
        + "average profit margin you calculated?",
      "Add calculated column and conditional formatting",
      "Average profit margin value and confirmation of formatting"),
    TaskEntry(
      "📋 Question 5: Final Task & Upload",
      "Excellent work! For your final task, please save all your "
        + "completed work in the Excel file. Make sure all your pivot "
        + "tables, charts, and calculated fields are properly "
        + "formatted and easy to read. Once everything is saved, "
        + "please upload your completed Excel file. Type 'upload' when "
        + "you're ready to submit your work for evaluation.",
      "Save work and upload completed file",
      "File upload with completed Excel tasks")
  ]

  lemma TaskTableIsBank()
    ensures |TaskTable| == TotalSteps
  {
  }

  /** Every step of the table has a title, a question and a task to show. */
  lemma TaskTableTexts()
    ensures forall i :: 0 <= i < |TaskTable| ==>
      TaskTable[i].title != "" && TaskTable[i].question != "" && TaskTable[i].task != ""
  {
  }

  /** Steps in the table, download and upload included. */
  const TotalSteps: int := 6
  /** What every task record reports as `total_questions`. */
  const TotalQuestions: int := 5
  const SampleFileName: string := "dummy_excel_assessment_data.xlsx"
  const NoFileMessage: string := "No file uploaded. Please upload your Excel workbook first."
  const CompleteMessage: string := "Congratulations! You've completed all the Excel assessment "
    + "questions. Please upload your final Excel file for evaluation."

  /** A mapping with the single key `error`. */
  function ErrorMapping(msg: string): (r: Json)
    ensures r.Obj? && Keys(r.members) == ["error"]
    ensures Field(r, "error") == Some(Str(msg))
  {
    Obj([Member("error", Str(msg))])
  }

  /** `x == 1` in Python: the integer one, or `True`. */
  predicate EqualsOne(x: Json)
  {
    x == Num(1) || x == Bool(true)
  }

  /** The integer a value stands for in arithmetic and in a dict lookup: ints, and bools as 0 and 1. */
  predicate IsIntLike(x: Json)
  {
    x.Num? || x.Bool?
  }

  function IntOf(x: Json): int
    requires IsIntLike(x)
  {
    if x.Num? then x.n else if x.b then 1 else 0
  }

  /** The table entry `questions.get(question_number, questions[1])` picks. Lists and dicts are
      unhashable and make the lookup raise; every other value that is not a key 1..6 falls back
      to step 1. */
  function SelectEntry(bank: QuestionBank, qn: Json): (r: Result<TaskEntry>)
    ensures r.Err? <==> qn.Arr? || qn.Obj?
    ensures r.Err? ==> r.error == "unhashable type: '" + TypeName(qn) + "'"
    ensures r.Ok? && IsIntLike(qn) && 1 <= IntOf(qn) <= TotalSteps ==> r.value == bank[IntOf(qn) - 1]
    ensures r.Ok? && !(IsIntLike(qn) && 1 <= IntOf(qn) <= TotalSteps) ==> r.value == bank[0]
  {
    if qn.Arr? then Err("unhashable type: 'list'")
    else if qn.Obj? then Err("unhashable type: 'dict'")
    else if IsIntLike(qn) && 1 <= IntOf(qn) <= TotalSteps then Ok(bank[IntOf(qn) - 1])
    else Ok(bank[0])
  }

  /** The record shows the title, question, task and expected response of entry `e`. */
  predicate ShowsEntry(j: Json, e: TaskEntry)
  {
    && Field(j, "question_title") == Some(Str(e.title))
    && Field(j, "question") == Some(Str(e.question))
    && Field(j, "task") == Some(Str(e.task))
    && Field(j, "expected_response") == Some(Str(e.expectedResponse))
  }

  const TaskRecordKeys: seq<string> := ["task_id", "session_id", "question_number", "total_questions",
    "question_title", "question", "task", "expected_response", "sample_file"]

  lemma TaskRecordKeysDistinct()
    ensures Distinct(TaskRecordKeys)
  {
  }

  /** The task record for entry `e`, with every field readable by its key. */
  function TaskRecord(taskId: string, sessionId: Json, qn: Json, e: TaskEntry): (r: Json)
    ensures r.Obj? && Keys(r.members) == TaskRecordKeys
    ensures Field(r, "task_id") == Some(Str(taskId))
    ensures Field(r, "session_id") == Some(sessionId)
    ensures Field(r, "question_number") == Some(qn)
    ensures Field(r, "total_questions") == Some(Num(TotalQuestions))
    ensures ShowsEntry(r, e)
    ensures Field(r, "sample_file") == Some(if EqualsOne(qn) then Str(SampleFileName) else Null)
  {
    var vs := [Str(taskId), sessionId, qn, Num(TotalQuestions), Str(e.title), Str(e.question), Str(e.task),
      Str(e.expectedResponse), if EqualsOne(qn) then Str(SampleFileName) else Null];
    TaskRecordKeysDistinct();
    RecordKeys(TaskRecordKeys, vs);
    RecordField(TaskRecordKeys, vs, 0);
    RecordField(TaskRecordKeys, vs, 1);
    RecordField(TaskRecordKeys, vs, 2);
    RecordField(TaskRecordKeys, vs, 3);
    RecordField(TaskRecordKeys, vs, 4);
    RecordField(TaskRecordKeys, vs, 5);
    RecordField(TaskRecordKeys, vs, 6);
    RecordField(TaskRecordKeys, vs, 7);
    RecordField(TaskRecordKeys, vs, 8);
    Record(TaskRecordKeys, vs)
  }

  /** `generate_excel_task(session_id, question_number)` with `task_id` the fresh identifier. */
  function GenerateExcelTask(bank: QuestionBank, sessionId: Json, questionNumber: Json, taskId: string): (r: Result<Json>)
    ensures r.Err? <==> questionNumber.Arr? || questionNumber.Obj?
    ensures r.Err? ==> r.error == "unhashable type: '" + TypeName(questionNumber) + "'"
    ensures r.Ok? ==> r.value.Obj? && Keys(r.value.members) == TaskRecordKeys
    ensures r.Ok? ==> Field(r.value, "task_id") == Some(Str(taskId))
    ensures r.Ok? ==> Field(r.value, "session_id") == Some(sessionId)
    ensures r.Ok? ==> Field(r.value, "question_number") == Some(questionNumber)
    ensures r.Ok? ==> Field(r.value, "total_questions") == Some(Num(TotalQuestions))
  {
    var e :- SelectEntry(bank, questionNumber);
    Ok(TaskRecord(taskId, sessionId, questionNumber, e))
  }

  /** A hashable question number gives a record that shows the entry it selects, and offers the
      sample file exactly for step 1 (the int 1 or `True`), `None` otherwise. */
  lemma GenerateShowsSelection(bank: QuestionBank, sessionId: Json, qn: Json, taskId: string)
    requires !qn.Arr? && !qn.Obj?
    ensures GenerateExcelTask(bank, sessionId, qn, taskId).Ok?
    ensures SelectEntry(bank, qn).Ok?
    ensures ShowsEntry(GenerateExcelTask(bank, sessionId, qn, taskId).value, SelectEntry(bank, qn).value)
    ensures Field(GenerateExcelTask(bank, sessionId, qn, taskId).value, "sample_file") == Some(Str(SampleFileName))
      <==> EqualsOne(qn)
    ensures Field(GenerateExcelTask(bank, sessionId, qn, taskId).value, "sample_file") in {Some(Str(SampleFileName)), Some(Null)}
  {
    assert GenerateExcelTask(bank, sessionId, qn, taskId) == Ok(TaskRecord(taskId, sessionId, qn, SelectEntry(bank, qn).value));
  }

  /** For a step 1..6 the record is the task record of that step's entry. */
  lemma GenerateShowsStep(bank: QuestionBank, sessionId: Json, n: int, taskId: string)
    requires 1 <= n <= TotalSteps
    ensures GenerateExcelTask(bank, sessionId, Num(n), taskId) == Ok(TaskRecord(taskId, sessionId, Num(n), bank[n - 1]))
  {
    assert SelectEntry(bank, Num(n)) == Ok(bank[n - 1]);
  }

  /** Any other hashable value gets the task record of step 1, while `question_number` still
      echoes it unclamped. */
  lemma GenerateFallsBack(bank: QuestionBank, sessionId: Json, qn: Json, taskId: string)
    requires !qn.Arr? && !qn.Obj?
    requires !(IsIntLike(qn) && 1 <= IntOf(qn) <= TotalSteps)
    ensures GenerateExcelTask(bank, sessionId, qn, taskId) == Ok(TaskRecord(taskId, sessionId, qn, bank[0]))
  {
    assert SelectEntry(bank, qn) == Ok(bank[0]);
  }

  /** The record `next_excel_question` returns past the last step. */
  const AssessmentComplete: Json := Obj([
    Member("status", Str("assessment_complete")),
    Member("message", Str(CompleteMessage)),
    Member("next_action", Str("upload_file"))])

  /** The `TypeError` of `current_question + 1` for a value that is not an int or a bool. */
  function AddOneError(x: Json): string
  {
    match x
    case Str(_) => "can only concatenate str (not \"int\") to str"
    case Arr(_) => "can only concatenate list (not \"int\") to list"
    case _ => "unsupported operand type(s) for +: '" + TypeName(x) + "' and 'int'"
  }

  /** The step counter of `next_excel_question`: the step after `c`, or none past the last. */
  function NextStep(c: int): (r: Option<int>)
    ensures r.Some? <==> c < TotalSteps
    ensures r.Some? ==> r.value == c + 1
  {
    if c + 1 > TotalSteps then None else Some(c + 1)
  }

  /** `next_excel_question(session_id, current_question)`. */
  function NextExcelQuestion(bank: QuestionBank, sessionId: Json, current: Json, taskId: string): (r: Result<Json>)
    ensures r.Err? <==> !IsIntLike(current)
    ensures r.Err? ==> r.error == AddOneError(current)
    ensures IsIntLike(current) && IntOf(current) + 1 > TotalSteps ==> r == Ok(AssessmentComplete)
  {
    if !IsIntLike(current) then Err(AddOneError(current))
    else
      match NextStep(IntOf(current))
      case None => Ok(AssessmentComplete)
      case Some(next) => GenerateExcelTask(bank, sessionId, Num(next), taskId)
  }

  /** A missing counter makes the increment raise before anything else happens. */
  lemma NextWithoutCounter(bank: QuestionBank, sessionId: Json, taskId: string)
    ensures NextExcelQuestion(bank, sessionId, Null, taskId) == Err("unsupported operand type(s) for +: 'NoneType' and 'int'")
  {
  }

  /** Below the last step the reply is the record of the following step: it reports the
      incremented number and shows that step's entry, or step 1's for a number below 1. */
  lemma NextAdvances(bank: QuestionBank, sessionId: Json, current: Json, taskId: string)
    requires IsIntLike(current) && IntOf(current) + 1 <= TotalSteps
    ensures NextExcelQuestion(bank, sessionId, current, taskId)
      == GenerateExcelTask(bank, sessionId, Num(IntOf(current) + 1), taskId)
    ensures NextExcelQuestion(bank, sessionId, current, taskId).Ok?
    ensures Field(NextExcelQuestion(bank, sessionId, current, taskId).value, "question_number") == Some(Num(IntOf(current) + 1))
    ensures 0 <= IntOf(current) ==>
      ShowsEntry(NextExcelQuestion(bank, sessionId, current, taskId).value, bank[IntOf(current)])
    ensures IntOf(current) < 0 ==>
      ShowsEntry(NextExcelQuestion(bank, sessionId, current, taskId).value, bank[0])
  {
    var next := IntOf(current) + 1;
    assert NextStep(IntOf(current)) == Some(next);
    assert NextExcelQuestion(bank, sessionId, current, taskId) == GenerateExcelTask(bank, sessionId, Num(next), taskId);
    if 1 <= next {
      GenerateShowsStep(bank, sessionId, next, taskId);
    } else {
      GenerateFallsBack(bank, sessionId, Num(next), taskId);
    }
  }

  /** The steps a run of the counter passes through from `c`, each call starting where the
      previous one ended, until it reports completion. */
  function Walk(c: int): seq<int>
    decreases TotalSteps - c
  {
    match NextStep(c)
    case None => []
    case Some(next) => [next] + Walk(next)
  }

  /** The integers `lo`, `lo + 1`, ..., `hi - 1`. */
  function Range(lo: int, hi: int): seq<int>
    decreases hi - lo
  {
    if lo >= hi then [] else [lo] + Range(lo + 1, hi)
  }

  /** From any current number up to 6 the run shows every following number up to 6, once each
      and in order. */
  lemma {:induction false} WalkCounts(c: int)
    requires c <= TotalSteps
    ensures Walk(c) == Range(c + 1, TotalSteps + 1)
    decreases TotalSteps - c
  {
    if c < TotalSteps {
      WalkCounts(c + 1);
    }
  }

  /** Starting from step 1, `next_excel_question` shows steps 2..6 in turn, each call given the
      number the previous call returned, and the call after step 6 completes the assessment. */
  lemma WalkFromFirstStep(bank: QuestionBank, sessionId: Json, taskId: string)
    ensures Walk(1) == [2, 3, 4, 5, 6]
    ensures forall k :: k in Walk(1) ==>
      && NextExcelQuestion(bank, sessionId, Num(k - 1), taskId).Ok?
      && Field(NextExcelQuestion(bank, sessionId, Num(k - 1), taskId).value, "question_number") == Some(Num(k))
    ensures NextExcelQuestion(bank, sessionId, Num(6), taskId) == Ok(AssessmentComplete)
  {
    WalkCounts(1);
    forall k | k in Walk(1)
      ensures NextExcelQuestion(bank, sessionId, Num(k - 1), taskId).Ok?
      ensures Field(NextExcelQuestion(bank, sessionId, Num(k - 1), taskId).value, "question_number") == Some(Num(k))
    {
      NextAdvances(bank, sessionId, Num(k - 1), taskId);
    }
  }

  /** Merging the dumped evaluation record into a mapping that holds none of its keys appends
      its three fields, so every earlier key keeps its value and validating the merged mapping
      gives back the evaluation record. */
  lemma MergeEvaluation(base: seq<Member>, e: EvaluationFeedback)
    requires "score" !in Keys(base) && "feedback" !in Keys(base) && "recommendations" !in Keys(base)
    requires ValidScore(e.score)
    ensures Update(base, DumpFeedback(e).members) == base + DumpFeedback(e).members
    ensures Keys(base + DumpFeedback(e).members) == Keys(base) + FeedbackFields
    ensures forall k :: k in Keys(base) ==> Lookup(base + DumpFeedback(e).members, k) == Lookup(base, k)
    ensures FeedbackFromJson(Obj(base + DumpFeedback(e).members)) == Ok(e)
  {
    var dump := DumpFeedback(e).members;
    MergeAppends(base, e);
    DumpFeedbackKeys(e);
    KeysConcat(base, dump);
    forall k | k in Keys(base) ensures Lookup(base + dump, k) == Lookup(base, k) {
      LookupConcat(base, dump, k);
    }
    LookupConcat(base, dump, "score");
    LookupConcat(base, dump, "feedback");
    LookupConcat(base, dump, "recommendations");
    FeedbackRoundTrip(e);
  }

  /** The three dumped fields are new to `base`, so the update appends them in order. */
  lemma MergeAppends(base: seq<Member>, e: EvaluationFeedback)
    requires "score" !in Keys(base) && "feedback" !in Keys(base) && "recommendations" !in Keys(base)
    ensures Update(base, DumpFeedback(e).members) == base + DumpFeedback(e).members
  {
    var dump := DumpFeedback(e).members;
    var m0, m1, m2 := dump[0], dump[1], dump[2];
    assert dump == [m0, m1, m2];
    KeysConcat(base, [m0]);
    KeysConcat(base, [m0, m1]);
    assert Keys([m0, m1]) == ["score", "feedback"];
    assert base + [m0] + [m1] == base + [m0, m1];
    assert FreshKeys([m2], base + [m0, m1]);
    assert FreshKeys([m1, m2], base + [m0]) by {
      assert [m1, m2][1..] == [m2];
    }
    assert FreshKeys(dump, base) by {
      assert dump[1..] == [m1, m2];
    }
    UpdateFresh(base, dump);
  }

  /** `evaluate_workbook(session_id, task_id, uploaded_file_data)`: without a file only an error
      mapping; with one the identifiers and file name followed by the evaluation fields. */
  function EvaluateWorkbook(sessionId: Json, taskId: Json, file: Option<UploadedFile>, outcome: RemoteOutcome): (r: Json)
    ensures r.Obj?
  {
    match file
    case None => ErrorMapping(NoFileMessage)
    case Some(f) =>
      var e := EvaluateExcelWithLlm(outcome);
      var base := Record(["session_id", "task_id", "filename"], [sessionId, taskId, Str(f.filename)]).members;
      Obj(Update(base, DumpFeedback(e).members))
  }

  /** Without a file the reply is only the error mapping; with one it holds the identifiers
      and the file name, then the evaluation fields, which validate back to the evaluation. */
  lemma WorkbookRecord(sessionId: Json, taskId: Json, file: Option<UploadedFile>, outcome: RemoteOutcome)
    ensures var r := EvaluateWorkbook(sessionId, taskId, file, outcome);
      file.None? ==> Keys(r.members) == ["error"] && Field(r, "error") == Some(Str(NoFileMessage))
    ensures var r := EvaluateWorkbook(sessionId, taskId, file, outcome);
      file.Some? ==> Keys(r.members) == ["session_id", "task_id", "filename"] + FeedbackFields
    ensures var r := EvaluateWorkbook(sessionId, taskId, file, outcome);
      file.Some? ==> Field(r, "session_id") == Some(sessionId) && Field(r, "task_id") == Some(taskId)
    ensures var r := EvaluateWorkbook(sessionId, taskId, file, outcome);
      file.Some? ==> Field(r, "filename") == Some(Str(file.value.filename))
    ensures var r := EvaluateWorkbook(sessionId, taskId, file, outcome);
      file.Some? ==> FeedbackFromJson(r) == Ok(EvaluateExcelWithLlm(outcome))
  {
    match file
    case None =>
    case Some(f) =>
      var ks, vs := ["session_id", "task_id", "filename"], [sessionId, taskId, Str(f.filename)];
      RecordKeys(ks, vs);
      RecordField(ks, vs, 0);
      RecordField(ks, vs, 1);
      RecordField(ks, vs, 2);
      MergeEvaluation(Record(ks, vs).members, EvaluateExcelWithLlm(outcome));
  }

  /** `len(x)` raises for a truthy value that has no length; a falsy one is never measured. */
  predicate LacksLength(x: Json)
  {
    Truthy(x) && (x.Bool? || x.Num?)
  }

  /** `llm_evaluate_excel_tool(workbook_summary)`: the streamlined evaluation, tagged and with the
      summary echoed. */
  function LlmEvaluateExcelTool(summary: Json, outcome: RemoteOutcome): (r: Result<Json>)
    ensures r.Err? <==> LacksLength(summary)
    ensures r.Err? ==> r.error == "object of type '" + TypeName(summary) + "' has no len()"
  {
    if LacksLength(summary) then Err("object of type '" + TypeName(summary) + "' has no len()")
    else
      var e := LlmEvaluateExcel(outcome);
      var base := Record(["evaluation_type", "workbook_summary"], [Str("streamlined"), summary]).members;
      Ok(Obj(Update(base, DumpFeedback(e).members)))
  }

  /** A summary with a length gives the tagged record: the evaluation type and the summary,
      then the evaluation fields, which validate back to the streamlined evaluation. */
  lemma StreamlinedRecord(summary: Json, outcome: RemoteOutcome)
    requires !LacksLength(summary)
    ensures var r := LlmEvaluateExcelTool(summary, outcome);
      r.Ok? && r.value.Obj? && Keys(r.value.members) == ["evaluation_type", "workbook_summary"] + FeedbackFields
    ensures var r := LlmEvaluateExcelTool(summary, outcome);
      r.Ok? && Field(r.value, "evaluation_type") == Some(Str("streamlined"))
    ensures var r := LlmEvaluateExcelTool(summary, outcome);
      r.Ok? && Field(r.value, "workbook_summary") == Some(summary)
    ensures var r := LlmEvaluateExcelTool(summary, outcome);
      r.Ok? && FeedbackFromJson(r.value) == Ok(LlmEvaluateExcel(outcome))
  {
    var ks, vs := ["evaluation_type", "workbook_summary"], [Str("streamlined"), summary];
    RecordKeys(ks, vs);
    RecordField(ks, vs, 0);
    RecordField(ks, vs, 1);
    MergeEvaluation(Record(ks, vs).members, LlmEvaluateExcel(outcome));
  }

  /** The text of the report's title paragraph; the f-string formats the session id as `str` does. */
  function SummaryHeading(sessionId: Json): string
  {
    "Excel Assessment Summary - Session " + PyStr(sessionId)
  }

  /** The text of the report's score paragraph, from the evaluation's dumped `score`. */
  function ScoreLine(score: Option<int>): string
  {
    "Overall Score: " + (if score.Some? then IntToDecimal(score.value) else "None") + "/10"
  }

  /** Text holding neither of the characters that open reportlab's paragraph markup: the `<` of
      a tag and the `&` of an entity. */
  predicate MarkupFree(s: string)
  {
    forall i :: 0 <= i < |s| ==> s[i] != '<' && s[i] != '&'
  }

  /** `summarize_assessment(session_id)`. Its evaluation succeeds. The handler then imports
      reportlab and builds the title paragraph and the score paragraph. reportlab parses each
      text as inline markup: `paragraphError` gives the exception it raises for a text, or `None`
      when the text parses. Then the handler reads a `grade` key that the evaluation record never
      has. So it always raises: `ModuleNotFoundError` without the library, otherwise the first
      paragraph's parse error, otherwise `KeyError('grade')`. */
  function SummarizeAssessment(sessionId: Json, outcome: RemoteOutcome, reportlabAvailable: bool,
                               paragraphError: string -> Option<string>): (r: Result<Json>)
    ensures r.Err?
    ensures !reportlabAvailable ==> r.error == "No module named 'reportlab'"
    ensures reportlabAvailable && paragraphError(SummaryHeading(sessionId)).Some? ==>
      r.error == paragraphError(SummaryHeading(sessionId)).value
    ensures (reportlabAvailable && paragraphError(SummaryHeading(sessionId)).None?
             && paragraphError(ScoreLine(LlmEvaluateExcel(outcome).score)).Some?) ==>
      r.error == paragraphError(ScoreLine(LlmEvaluateExcel(outcome).score)).value
    ensures (reportlabAvailable && paragraphError(SummaryHeading(sessionId)).None?
             && paragraphError(ScoreLine(LlmEvaluateExcel(outcome).score)).None?) ==>
      r.error == "'grade'"
  {
    var evaluation := LlmEvaluateExcel(outcome);
    if !reportlabAvailable then Err("No module named 'reportlab'")
    else
      match paragraphError(SummaryHeading(sessionId))
      case Some(e) => Err(e)
      case None =>
        match paragraphError(ScoreLine(evaluation.score))
        case Some(e) => Err(e)
        case None => Err("'grade'")
  }

  /** The decimal digits of a natural number hold no markup. */
  lemma {:induction false} NatToDecimalMarkupFree(n: nat)
    ensures MarkupFree(NatToDecimal(n))
    decreases n
  {
    if n >= 10 {
      NatToDecimalMarkupFree(n / 10);
    }
  }

  /** The score paragraph holds no markup, whatever the evaluation's score. */
  lemma ScoreLineMarkupFree(score: Option<int>)
    ensures MarkupFree(ScoreLine(score))
  {
    if score.Some? {
      var n := score.value;
      if n < 0 {
        NatToDecimalMarkupFree(-n);
      } else {
        NatToDecimalMarkupFree(n);
      }
    }
  }

  /** With reportlab present and a parser that accepts every markup-free text, a session id
      without markup lets the handler reach the missing `grade` key. */
  lemma GradeMissingForPlainSession(sessionId: Json, outcome: RemoteOutcome, paragraphError: string -> Option<string>)
    requires forall s :: MarkupFree(s) ==> paragraphError(s).None?
    requires MarkupFree(PyStr(sessionId))
    ensures SummarizeAssessment(sessionId, outcome, true, paragraphError) == Err("'grade'")
  {
    var heading := SummaryHeading(sessionId);
    assert MarkupFree(heading) by {
      var prefix := "Excel Assessment Summary - Session ";
      assert heading == prefix + PyStr(sessionId);
      forall i | 0 <= i < |heading| ensures heading[i] != '<' && heading[i] != '&' {
        if i >= |prefix| {
          assert heading[i] == PyStr(sessionId)[i - |prefix|];
        }
      }
    }
    ScoreLineMarkupFree(LlmEvaluateExcel(outcome).score);
  }

  /** Python's `str(x)` of a decoded JSON value. Strings inside containers are quoted with
      single quotes and not escaped. */
  function PyStr(x: Json): string
  {
    match x
    case Str(s) => s
    case _ => PyRepr(x)
  }

  function PyRepr(x: Json): string
    decreases x
  {
    match x
    case Null => "None"
    case Bool(b) => if b then "True" else "False"
    case Num(n) => IntToDecimal(n)
    case Str(s) => "'" + s + "'"
    case Arr(items) => "[" + Join(seq(|items|, i requires 0 <= i < |items| => PyRepr(items[i]))) + "]"
    case Obj(ms) => "{" + Join(seq(|ms|, i requires 0 <= i < |ms| => "'" + ms[i].key + "': " + PyRepr(ms[i].value))) + "}"
  }

  /** The parts separated by ", ". */
  function Join(parts: seq<string>): string
  {
    if parts == [] then "" else if |parts| == 1 then parts[0] else parts[0] + ", " + Join(parts[1..])
  }

  function Greeting(name: string): string
  {
    "Hello " + name + "! I'm your Excel Interview Agent. "
      + "Let's begin your Excel proficiency assessment."
  }

  /** `start_excel_assessment(candidate_name)` with `session_id` the fresh identifier. */
  function StartExcelAssessment(candidateName: Json, sessionId: string): (r: Json)
    ensures r.Obj?
  {
    Record(StartKeys, [Str(sessionId), Str(Greeting(PyStr(candidateName))), Str("assessment_started"),
      Str(NextStepMessage)])
  }

  const StartKeys: seq<string> := ["session_id", "message", "status", "next_step"]

  const NextStepMessage: string :=
    "I will now provide you with the Excel assessment tasks. "
      + "You'll need to download a sample file to complete the exercises."

  /** The start record names the fresh session, greets the candidate and reports the
      assessment as started. */
  lemma StartRecord(candidateName: Json, sessionId: string)
    ensures var r := StartExcelAssessment(candidateName, sessionId);
      Keys(r.members) == ["session_id", "message", "status", "next_step"]
    ensures Field(StartExcelAssessment(candidateName, sessionId), "session_id") == Some(Str(sessionId))
    ensures Field(StartExcelAssessment(candidateName, sessionId), "status") == Some(Str("assessment_started"))
    ensures Field(StartExcelAssessment(candidateName, sessionId), "message") ==
      Some(Str(Greeting(PyStr(candidateName))))
  {
    var vs := [Str(sessionId), Str(Greeting(PyStr(candidateName))), Str("assessment_started"), Str(NextStepMessage)];
    RecordKeys(StartKeys, vs);
    RecordField(StartKeys, vs, 0);
    RecordField(StartKeys, vs, 1);
    RecordField(StartKeys, vs, 2);
  }

  /** A candidate name given as a string is greeted verbatim; an absent one as "None". */
  lemma GreetsByName(name: string, sessionId: string)
    ensures Field(StartExcelAssessment(Str(name), sessionId), "message") == Some(Str(Greeting(name)))
    ensures Field(StartExcelAssessment(Null, sessionId), "message") == Some(Str(Greeting("None")))
  {
    StartRecord(Str(name), sessionId);
    StartRecord(Null, sessionId);
    assert PyStr(Str(name)) == name;
    assert PyStr(Null) == "None";
  }

  /** The handlers `TOOL_FUNCTIONS` can name. */
  datatype ToolFunction =
    | StartExcelAssessmentFn
    | GenerateExcelTaskFn
    | NextExcelQuestionFn
    | EvaluateWorkbookFn
    | LlmEvaluateExcelToolFn
    | SummarizeAssessmentFn

  /** `TOOL_FUNCTIONS`: tool name to handler. `provide_download_help` is defined but not registered. */
  const ToolFunctions: map<string, ToolFunction> := map[
    "start_excel_assessment" := StartExcelAssessmentFn,
    "generate_excel_task" := GenerateExcelTaskFn,
    "next_excel_question" := NextExcelQuestionFn,
    "evaluate_workbook" := EvaluateWorkbookFn,
    "llm_evaluate_excel" := LlmEvaluateExcelToolFn,
    "summarize_assessment" := SummarizeAssessmentFn]

  /** The registry has exactly six names, one per handler; the streamlined tool is registered
      under the evaluator's name, and the download help is not reachable. */
  lemma RegistryShape()
    ensures ToolFunctions.Keys == {"start_excel_assessment", "generate_excel_task", "next_excel_question",
      "evaluate_workbook", "llm_evaluate_excel", "summarize_assessment"}
    ensures |ToolFunctions| == 6
    ensures ToolFunctions["llm_evaluate_excel"] == LlmEvaluateExcelToolFn
    ensures "provide_download_help" !in ToolFunctions
    ensures forall f: ToolFunction :: f in ToolFunctions.Values
  {
    forall f: ToolFunction ensures f in ToolFunctions.Values {
      match f
      case StartExcelAssessmentFn => assert ToolFunctions["start_excel_assessment"] == f;
      case GenerateExcelTaskFn => assert ToolFunctions["generate_excel_task"] == f;
      case NextExcelQuestionFn => assert ToolFunctions["next_excel_question"] == f;
      case EvaluateWorkbookFn => assert ToolFunctions["evaluate_workbook"] == f;
      case LlmEvaluateExcelToolFn => assert ToolFunctions["llm_evaluate_excel"] == f;
      case SummarizeAssessmentFn => assert ToolFunctions["summarize_assessment"] == f;
    }
  }
}

=== FILE: upload_intent.dfy ===
/** Upload-intent detection of evaluation.py (`detect_upload_intent`). */
module UploadIntent {
  import opened Text

  /** The twelve keywords, in the source's order. */
  const UploadKeywords: seq<string> :=
    ["upload", "submit", "file", "workbook", "excel", "spreadsheet",
     "evaluate", "check", "review", "assess", ".xlsx", ".xls"]

  /** The user's text, lower-cased, contains at least one keyword. */
  predicate HasUploadIntent(s: string)
  {
    exists j | 0 <= j < |UploadKeywords| :: Contains(Lower(s), UploadKeywords[j])
  }

  /** `any(keyword in user_input.lower() for keyword in upload_keywords)` */
  method DetectUploadIntent(userInput: string) returns (intent: bool)
    ensures intent <==> HasUploadIntent(userInput)
  {
    var lowered := Lower(userInput);
    var j := 0;
    while j < |UploadKeywords|
      invariant 0 <= j <= |UploadKeywords|
      invariant forall j' :: 0 <= j' < j ==> !Contains(lowered, UploadKeywords[j'])
    {
      var found := FindSubstring(lowered, UploadKeywords[j]);
      if found {
        return true;
      }
      j := j + 1;
    }
    return false;
  }

  /** Empty input never signals an upload: every keyword is non-empty. */
  lemma EmptyInputHasNoIntent()
    ensures !HasUploadIntent("")
  {
    forall j | 0 <= j < |UploadKeywords| ensures !Contains(Lower(""), UploadKeywords[j]) {
      assert |UploadKeywords[j]| > 0;
    }
  }

  /** Detection ignores letter case: lower-casing the input first changes nothing. */
  lemma IntentIgnoresCase(s: string)
    ensures HasUploadIntent(Lower(s)) <==> HasUploadIntent(s)
  {
    LowerIdempotent(s);
  }

  /** Adding text around an input that signals an upload keeps the signal. */
  lemma IntentSurvivesMoreText(s: string, t: string)
    requires HasUploadIntent(s)
    ensures HasUploadIntent(s + t) && HasUploadIntent(t + s)
  {
    var j :| 0 <= j < |UploadKeywords| && Contains(Lower(s), UploadKeywords[j]);
    LowerAppend(s, t);
    LowerAppend(t, s);
    ContainsExtend(Lower(s), Lower(t), UploadKeywords[j]);
  }

  /** Upper-case keywords are recognised. */
  lemma UpperCaseKeywordDetected()
    ensures HasUploadIntent("UPLOAD")
  {
    assert Lower("UPLOAD") == "upload";
    assert OccursAt(Lower("UPLOAD"), UploadKeywords[0], 0);
  }
}
